=== FILE: README.md ===
# Config validators: a Dafny model

This project models the core of a small Python configuration-validation
architecture. The core has five parts:

- **Model registry and loader.** A registry maps JSON file names to config
  classes. The loader walks a directory's `*.json` files. Each recognised
  file either yields a config instance, stored under its class, or yields
  errors, which are collected rather than raised.
- **Structured errors.** Each error has a class from a small hierarchy, a
  message and ordered keyword attributes. It has a canonical text rendering:
  `ERROR: <msg>` followed by one `key=value` line per attribute.
- **Cross-config validator registry.** It accepts a validation function only
  if every parameter is annotated with a config class. It records the
  annotated types in declaration order.
- **Cross-config runner.** It calls each registered validator whose required
  configs are all loaded, with the arguments in declared order. It
  concatenates the errors and can raise them as one group in strict mode.
- **Legacy validator package.** Its registry stores a set of types per
  function. Its runner passes arguments in the loaded-config dict's
  iteration order. Each package has its own subfeature validator: every
  subfeature a feature references must be defined.

## How it is modelled

- Python dicts keyed by class are insertion-ordered association lists
  (`Dicts`). Assigning to an existing key keeps its position. A new key is
  appended.
- What a validator function computes is a parameter,
  `apply(f, args) -> errors`.
- `str()` of non-empty lists, of tuples (pydantic locations) and of
  `inspect.Parameter` lists is a parameter `show`. Strings, wrapped
  exceptions and the empty list render exactly.
- Reading, JSON decoding and pydantic construction of a file are collapsed
  into that file's `Outcome`:
  - an instance;
  - a list of schema violations;
  - any other exception, given by its message.
- Raising is a `Result.Failure`. The registration functions return the
  registry afterwards together with the decorator's result.

Modules, one per file:

- `Wrappers`, `Strings`, `Seqs` and `Dicts`: generic helpers.
- `Models`: config classes and validator signatures.
- `Exceptions`: `src/exceptions.py`.
- `ValidatorRegistry`: `src/cross_config_validations/validators/__init__.py`.
- `ValidationsRunner`: `src/cross_config_validations/validations_runner.py`.
- `FeatureSubfeature`: `src/cross_config_validations/feature_subfeature_validator.py`.
- `ConfigLoader`: `src/config_loader.py`.
- `LegacyValidators`: everything under `src/validators`.
- `Scenarios`: end-to-end examples.

### Behaviour of the code worth noting

- A schema error carries only a `location` attribute
  (src/config_loader.py:60-62). A creation error carries only `error`
  (src/config_loader.py:67). Neither names the file it came from.
- A missing pydantic `loc` defaults to the list `[]`
  (src/config_loader.py:61). `str` prints that as `[]`, while an empty
  pydantic location is the tuple `()`. The model keeps the two apart.
- src/config_loader.py:55 assigns only when construction succeeds. An
  instance an earlier file stored under a class therefore survives a later
  schema failure for the same class. The configs dict only ever gains or
  overwrites entries.
- The strict-mode cross-config runner calls `BaseException.group_errors`
  (src/cross_config_validations/validations_runner.py:14), which is not
  defined in src/exceptions.py. It is modelled as a failure that carries
  the whole error list.

## Model

| member | source | states |
|---|---|---|
| Exceptions.Render | src/exceptions.py:14-21 | The rendering begins with `ERROR: <msg>` and a line break. With no attributes, that header line is the whole text. |
| Exceptions.ParseRender | src/exceptions.py:8-21 | Suppose no line break appears in the message, the attribute names or the rendered values, and no `=` appears in a name. Then the rendering can be read back: the message and every attribute's name and `str` value come back in keyword order. |
| Exceptions.RenderLines | src/exceptions.py:16-20 | For an error with no line break in its message, attribute names or rendered values, and no `=` in a name: split at line breaks, the rendering is the header and then an empty line (no attributes) or exactly one `key=value` line per attribute, in order. |
| Exceptions.ReprReadsBack | src/exceptions.py:23-24 | Under the same conditions as `ParseRender`, `repr` of an error reads back to its message and every attribute's name and `str` value, in keyword order, just as `str` does. |
| Exceptions.KindHierarchy | src/exceptions.py:31-48 | Every class is a `BaseException`. The validation errors are exactly `BaseValidationError` and its three subclasses. `ConfigCreationFailedError` is not a validation error. The legacy classes form their own family. |
| ValidatorRegistry.InvalidParams | src/cross_config_validations/validators/__init__.py:27-29 | The reported parameters are exactly those whose annotation is not a config class. |
| ValidatorRegistry.InvalidParamsAppend | src/cross_config_validations/validators/__init__.py:27-29 | Like the list comprehension, the filter of a concatenation is the concatenation of the filters, so declaration order and repeats are kept. |
| ValidatorRegistry.InvalidParamsSingle | src/cross_config_validations/validators/__init__.py:28 | A single parameter is kept exactly when its annotation is not a config class. |
| ValidatorRegistry.RegisterValidation | src/cross_config_validations/validators/__init__.py:20-33 | Registration succeeds iff every parameter is a config class. On success, one entry is appended, the registry is otherwise unchanged, the types follow the parameter annotations in order, and the function is returned. On failure, the registry is unchanged and the error is `InvalidValidationFunctionSignature` with `func` and a non-empty `invalid_parameters`. That list is the declaration-order filter `InvalidParams`, so it holds exactly the bad parameters. |
| ValidatorRegistry.FirstInvalidIsFirst | src/cross_config_validations/validators/__init__.py:23 | The stopping index is the first function whose signature is rejected. Every earlier function is accepted. |
| ValidatorRegistry.RegisterAllPrefix | src/cross_config_validations/validators/__init__.py:23-33 | Decorating functions in import order registers exactly the functions before the first bad signature, in order. The first bad signature's error is the one raised. |
| ValidationsRunner.RunValidations | src/cross_config_validations/validations_runner.py:8-33 | The result is every runnable validator's errors in registry order. An error is reported iff some validator that ran returned it. Strict mode fails iff that list is non-empty, and the failure carries the whole list. |
| ValidationsRunner.RunsIff | src/cross_config_validations/validations_runner.py:25-29 | A validator is skipped exactly when one of its required types is absent from the loaded configs. |
| ValidationsRunner.ArgsInDeclaredOrder | src/cross_config_validations/validations_runner.py:25-31 | A validator that runs receives one argument per declared type. Argument `i` is the config stored under the `i`-th declared type. |
| ValidationsRunner.ArgsIgnoreInsertionOrder | src/cross_config_validations/validations_runner.py:25-27 | Two config dicts that store the same instance under every type agree on whether a validator runs and on its arguments, whatever their insertion order. |
| ValidationsRunner.ArgsWellTyped | src/cross_config_validations/validations_runner.py:25-31 | Over well-typed configs, every parameter receives an instance of the type declared for it. |
| ValidationsRunner.NoRequirementsAlwaysRuns | src/cross_config_validations/validations_runner.py:25-31 | A validator with no parameters always runs and is called with no arguments. |
| ValidationsRunner.RunAppend | src/cross_config_validations/validations_runner.py:24-33 | Running the concatenation of two registries gives the concatenation of their error lists. |
| ValidationsRunner.RunSnoc | src/cross_config_validations/validations_runner.py:24-31 | A skipped validator adds nothing. A runnable one appends exactly its own output after all earlier errors. |
| ValidationsRunner.RunMembership | src/cross_config_validations/validations_runner.py:22-33 | Every reported error was returned by a validator that ran. Every error such a validator returned is reported. |
| ValidationsRunner.RunIgnoresInsertionOrder | src/cross_config_validations/validations_runner.py:25 | Two config dicts that map every type to the same instance give the same errors, whatever their insertion order. |
| FeatureSubfeature.UndefinedNames | src/cross_config_validations/feature_subfeature_validator.py:16-19 | The undefined names are exactly the referenced names minus the defined names, each listed once. The list is empty iff every reference is defined. |
| FeatureSubfeature.Validate | src/cross_config_validations/feature_subfeature_validator.py:10-28 | There is one `BaseCrossConfigValidationError` per referenced-but-undefined name, each with the fixed message and an `undefined_subfeature` attribute, with no duplicates. There are no errors iff every reference is defined. |
| ConfigLoader.RegisterConfigModel | src/config_loader.py:19-24 | The file name maps to the class, every other name keeps its entry, and the class is returned unchanged. |
| ConfigLoader.LastRegistrationWins | src/config_loader.py:15-24 | After a sequence of registrations, a name is known iff it was known before or was registered. A name that was never re-registered keeps its entry. |
| ConfigLoader.LastRegistrationValue | src/config_loader.py:19-24 | A name maps to the class of its last registration. |
| ConfigLoader.ProcessFile | src/config_loader.py:48-67 | An unrecognised file changes nothing. A constructed file stores its instance under its class. A schema failure appends one `Pydantic validation failed` error per violation and leaves the configs alone. Any other failure appends one `ConfigCreationFailedError`. |
| ConfigLoader.SchemaErrorShape | src/config_loader.py:58-65 | The message is `Pydantic validation failed: ` followed by the violation's message or `Unknown error`. The one `location` attribute renders a missing location as `[]`, keeps a present one as given, and never confuses a missing location with an empty one. |
| ConfigLoader.LoadErrorsAppend | src/config_loader.py:44-69 | The error list of a load is the files' own errors concatenated in enumeration order. It is independent of what was loaded before. |
| ConfigLoader.LoadErrorsIff | src/config_loader.py:44-69 | A load reports no errors iff every file is unrecognised, constructed, or rejected with an empty violation list. Every reported error is a single-config or a creation error. |
| ConfigLoader.LoadedClasses | src/config_loader.py:48-55 | A class is loaded iff some recognised file of that class was constructed. |
| ConfigLoader.LoadedOnce | src/config_loader.py:55 | Each loaded class appears once in the configs dict. |
| ConfigLoader.LoadErrorsInOrder | src/config_loader.py:44-69 | The collected error list equals the first file's own errors, then the second file's, and so on in enumeration order. |
| ConfigLoader.UnpackLoad | src/config_loader.py:32-35 | Unpacking a load result gives the configs dict and the error list. The dict holds exactly the classes some recognised file constructed, each once. The list is the files' own errors in enumeration order, and it is empty iff every file is clean. |
| ConfigLoader.LastFileWins | src/config_loader.py:52-55 | The instance stored under a class comes from the last file that constructed that class. |
| ConfigLoader.LoadWellTyped | src/config_loader.py:52-55 | If each file constructs an instance of its registered class, every stored instance sits under its own class. |
| ConfigLoader.StrictMessageShape | src/config_loader.py:75 | The strict-mode message for one error is that error's rendering. Each further error adds a line of 80 `#` between line breaks, then its rendering. |
| ConfigLoader.LoadConfigs | src/config_loader.py:71-78 | Every file is processed. Strict mode fails iff there is an error. The failure is a `BaseValidationError` with the joined renderings as its message and no attributes. Otherwise the full load result is returned. |
| LegacyValidators.RegisterValidator | src/validators/__init__.py:13-18 | Any types are accepted. One entry is appended with the set of the given types, and the function is returned. |
| LegacyValidators.DuplicatesCollapse | src/validators/__init__.py:15 | A type listed twice is registered once. |
| LegacyValidators.LegacyRunsIff | src/validators/validations_runner.py:10-12 | A legacy validator is skipped iff a required type is missing. One with no required types always runs, with no arguments. |
| LegacyValidators.LegacyArgsInDictOrder | src/validators/validations_runner.py:14-19 | The arguments are the required configs in the dict's insertion order. Argument `i` is the instance of the `i`-th required key in iteration order. |
| LegacyValidators.LegacyArgCount | src/validators/validations_runner.py:14-19 | A legacy validator that runs gets exactly one argument per required type. |
| LegacyValidators.LegacyRunSnoc | src/validators/validations_runner.py:9-23 | A skipped legacy validator adds nothing. A runnable one appends exactly its own output. |
| LegacyValidators.LegacyRunMembership | src/validators/validations_runner.py:7-23 | Every reported error was returned by a legacy validator that ran. Every error such a validator returned is reported. |
| LegacyValidators.LegacyValidate | src/validators/feature_subfeature_validator.py:10-27 | There is one `BaseValidationError` per referenced-but-undefined name. Its message is `Referenced subfeature <name> is undefined`, and it has an `undefined_subfeature` attribute. There are no duplicates, and no errors iff every reference is defined. |
| Scenarios.RejectsNonConfigParameter | tests/unit_tests/test_registries.py:7-15 | A function taking `num: int` is rejected. The registry does not grow, and the error names the function and lists `num`. |
| Scenarios.RegistersSubfeatureValidator | src/cross_config_validations/feature_subfeature_validator.py:9-12 | The subfeature validator registers with `(FeatureConfig, SubFeatureConfig)` as its required types. |
| Scenarios.UndefinedSubfeatureRun | src/cross_config_validations/validations_runner.py:24-33 | With a feature and a subfeature config loaded, in either order, the registered subfeature validator runs on the pair and its errors are exactly the run's result. |
| Scenarios.UndefinedSubfeatureReported | src/cross_config_validations/feature_subfeature_validator.py:16-28 | A feature referencing `sub_1` and `sub_3`, with only `sub_1` defined, yields exactly one error, naming `sub_3`. |
| Scenarios.DefaultModelRegistry | src/models/feature_config.py:11-12 | Importing the model modules registers `FeatureConfig.json` under `FeatureConfig` and `SubFeatureConfig.json` under `SubFeatureConfig` (src/models/subfeature_config.py:10-11 likewise). |
| Scenarios.UndefinedSubfeatureLoad | src/config_loader.py:44-69 | Loading the feature and subfeature files stores both configs in enumeration order, with no error. |
| Scenarios.SchemaFailureSkipsValidator | src/config_loader.py:56-65 | A feature file rejected by its schema yields its single-config error and no feature config, so the subfeature validator is skipped. |
| Scenarios.LegacyUndefinedSubfeatureRun | src/validators/validations_runner.py:9-21 | The legacy subfeature validator, registered for `FeatureConfig` and `SubFeatureConfig`, runs on a feature-first dict of any feature and subfeature config, and the legacy run returns exactly its errors. |
| Scenarios.SubfeatureFirstLoad | src/config_loader.py:44-69 | Enumerating `SubFeatureConfig.json` before `FeatureConfig.json` stores the subfeature config first, with no error. This is the dict the legacy argument-order finding starts from. |
| Scenarios.LegacyArgumentOrderFollowsLoading | src/validators/validations_runner.py:14-19 | With the subfeature config loaded first, the legacy runner passes the `SubFeatureConfig` as the first argument. |
| Scenarios.DeclaredOrderWhateverTheLoadingOrder | src/cross_config_validations/validations_runner.py:25-31 | With the same loading order, the current runner passes `(FeatureConfig, SubFeatureConfig)` in declared order. |

## Left out

- Directory globbing, file reading and JSON decoding are not modelled. Each file is its name plus the outcome of constructing it, and files are processed in the order given.
- Pydantic field validation is not modelled. A schema check is represented only by its outcome: an instance or a list of violations, each with an optional message and location.
- `inspect.signature` and `issubclass` are not modelled. A parameter's annotation is either a config class or some other class, already resolved. Annotations that are not classes (a string annotation, `list[int]`, `X | None`) make `issubclass` raise `TypeError` at registration; they are outside the model.
- Auto-discovery of validator modules through `pkgutil` is not modelled. The registries are built by explicit calls in import order.
- The diagnostic print at src/config_loader.py:57 is not modelled, because it is output only.
- main.py, the CLI entry point, is left out because it is I/O.
- `str()` of non-empty lists, of tuples and of `inspect.Parameter` values is left to the parameter `show`. The empty list renders as `[]`.
- Exceptions raised inside a validator are not modelled. Each validator is assumed to return a list of errors. In the source such an exception escapes src/cross_config_validations/validations_runner.py:31 or src/validators/validations_runner.py:21 and aborts the whole run. This includes the AttributeError the legacy argument-order finding below leads to.
- Python's set iteration order is not modelled. Undefined subfeature names are listed in order of first reference, where Python uses hash order.
- Both subfeature validators decorate with `validations_runner.register_validation`, a name their runner modules do not define. The model registers the cross-config one through `RegisterValidation` and the legacy one through `RegisterValidator` with the two config classes, as the scenarios `RegistersSubfeatureValidator` and `LegacyUndefinedSubfeatureRun` do.
- `group_errors` is not defined (src/cross_config_validations/validations_runner.py:14), so strict-mode grouping is a failure carrying the error list. `BaseExceptionGroup` (src/exceptions.py:27-28) is defined but unused.
- tests/system_tests/test_validations.py passes a `ConfigLoadResult` where the legacy runner expects a dict. The model always passes the configs dict.
- ValidatorRegistry.RequiredTypes: its contract is stated only for signatures in which every parameter is a config class, the only case in which the source reaches it.
- Exceptions.Render: its own contract fixes only the header line. The attribute lines are described by `ParseRender` and `RenderLines`, which assume no line break in the message, names or values and no `=` in names.

## Findings

| source | as written | input that shows it | evidently intended | confidence | as-written member | corrected member |
|---|---|---|---|---|---|---|
| src/validators/validations_runner.py:14-19 | The arguments are passed in the iteration order of the loaded-configs dict, which is the file enumeration order. | A validator registered for `{FeatureConfig, SubFeatureConfig}`, with `SubFeatureConfig.json` enumerated before `FeatureConfig.json`: `feature_config` receives the `SubFeatureConfig` (`SubfeatureFirstLoad` gives the loaded dict). | The arguments are passed in the order of the function's parameters. The cross-config runner does this by reading the types off the signature. | medium; not executed | Scenarios.LegacyArgumentOrderFollowsLoading | ValidationsRunner.ArgsWellTyped |

=== FILE: config_loader.dfy ===
/** The configuration loader of src/config_loader.py: a filename-keyed
    model registry, and a continue-on-error pass over the JSON files of a
    directory. Reading, JSON decoding and schema construction are abstracted
    into each file's `Outcome`. */
module ConfigLoader {
  import opened Wrappers
  import opened Strings
  import opened Dicts
  import opened Models
  import opened Exceptions

  /** `_MODEL_REGISTRY`: file name to config class. */
  type ModelRegistry = map<string, ConfigType>

  /** `register_config_model(filename=filename)(cls)`: the registry
      afterwards and the decorator's return value. */
  function RegisterConfigModel(registry: ModelRegistry, filename: string, cls: ConfigType): (r: (ModelRegistry, ConfigType))
    ensures filename in r.0 && r.0[filename] == cls
    ensures forall k :: k != filename ==> (k in r.0 <==> k in registry)
    ensures forall k :: k != filename && k in registry ==> r.0[k] == registry[k]
    ensures r.1 == cls
  {
    (registry[filename := cls], cls)
  }

  /** Several `register_config_model` decorations, in import order. */
  function RegisterModels(registry: ModelRegistry, models: seq<(string, ConfigType)>): ModelRegistry
  {
    if |models| == 0 then registry
    else RegisterConfigModel(RegisterModels(registry, models[..|models| - 1]), models[|models| - 1].0, models[|models| - 1].1).0
  }

  /** The last registration of a file name wins; names never registered
      keep their earlier entry. */
  lemma {:induction false} LastRegistrationWins(registry: ModelRegistry, models: seq<(string, ConfigType)>, k: string)
    ensures k in RegisterModels(registry, models) <==> k in registry || exists i :: 0 <= i < |models| && models[i].0 == k
    ensures (forall i :: 0 <= i < |models| ==> models[i].0 != k) && k in registry ==>
      RegisterModels(registry, models)[k] == registry[k]
  {
    if |models| > 0 {
      var n := |models| - 1;
      LastRegistrationWins(registry, models[..n], k);
      assert forall i :: 0 <= i < n ==> models[..n][i] == models[i];
    }
  }

  /** The entry of a file name is the class of its last registration. */
  lemma {:induction false} LastRegistrationValue(registry: ModelRegistry, models: seq<(string, ConfigType)>, i: nat)
    requires i < |models|
    requires forall j :: i < j < |models| ==> models[j].0 != models[i].0
    ensures models[i].0 in RegisterModels(registry, models)
    ensures RegisterModels(registry, models)[models[i].0] == models[i].1
  {
    var n := |models| - 1;
    if i < n {
      assert models[..n][i] == models[i];
      assert forall j :: i < j < n ==> models[..n][j] == models[j];
      LastRegistrationValue(registry, models[..n], i);
    }
  }

  /** The four models of src/models, each registering its own file name. */
  const DefaultModels: seq<(string, ConfigType)> := [
    ("DatabaseConfig.json", DatabaseConfigType),
    ("FeatureConfig.json", FeatureConfigType),
    ("MyNewThingConfig.json", MyNewThingConfigType),
    ("SubFeatureConfig.json", SubFeatureConfigType)
  ]

  /** One entry of pydantic's `ValidationError.errors()`; either key may be missing. */
  datatype Violation = Violation(msg: Option<string>, loc: Option<seq<LocStep>>)

  /** What reading, decoding and constructing one file came to. */
  datatype Outcome =
    | Parsed(config: Config)                  // the constructor returned an instance
    | SchemaErrors(violations: seq<Violation>) // pydantic.ValidationError
    | CreationFailure(message: string)         // any other exception, by its str

  /** A `*.json` file of the directory, in enumeration order. */
  datatype File = File(name: string, outcome: Outcome)

  datatype ConfigLoadResult = ConfigLoadResult(configs: Configs, errors: seq<Error>) {
    /** `ConfigLoadResult.unpack`. */
    function Unpack(): (Configs, seq<Error>)
    {
      (configs, errors)
    }
  }

  const EmptyResult := ConfigLoadResult([], [])

  /** The `BaseSingleConfigValidationError` built for one violation. A
      missing location defaults to the list `[]`, not to pydantic's tuple. */
  function SchemaError(v: Violation): Error
  {
    var location := match v.loc
      case Some(steps) => Location(steps)
      case None => EmptyList;
    Error(SingleConfig, "Pydantic validation failed: " + v.msg.GetOr("Unknown error"), [("location", location)])
  }

  /** The error of a violation: its message (or `Unknown error`) after the
      fixed prefix, and one `location` attribute that renders a missing
      location as `[]` and keeps an empty pydantic location apart from it. */
  lemma SchemaErrorShape(v: Violation, show: Value -> string)
    ensures SchemaError(v).kind == SingleConfig
    ensures v.msg.Some? ==> SchemaError(v).msg == "Pydantic validation failed: " + v.msg.value
    ensures v.msg.None? ==> SchemaError(v).msg == "Pydantic validation failed: Unknown error"
    ensures |SchemaError(v).attrs| == 1 && SchemaError(v).attrs[0].0 == "location"
    ensures v.loc.None? ==> ValueToString(SchemaError(v).attrs[0].1, show) == "[]"
    ensures v.loc.Some? ==> SchemaError(v).attrs[0].1 == Location(v.loc.value)
    ensures SchemaError(Violation(v.msg, None)) != SchemaError(Violation(v.msg, Some([])))
  {
  }

  function SchemaErrorsOf(vs: seq<Violation>): (r: seq<Error>)
    ensures |r| == |vs|
    ensures forall i :: 0 <= i < |vs| ==> r[i] == SchemaError(vs[i])
  {
    if |vs| == 0 then [] else [SchemaError(vs[0])] + SchemaErrorsOf(vs[1..])
  }

  /** The `ConfigCreationFailedError(err_msg=str(e), error=e)` of any other failure. */
  function CreationError(message: string): Error
  {
    Error(CreationFailed, message, [("error", Cause(message))])
  }

  /** One iteration of the loop in `ConfigLoader._load_configs`. */
  function ProcessFile(registry: ModelRegistry, acc: ConfigLoadResult, file: File): (r: ConfigLoadResult)
    ensures file.name !in registry ==> r == acc
    ensures file.name in registry && file.outcome.Parsed? ==>
      r.configs == Put(acc.configs, registry[file.name], file.outcome.config) && r.errors == acc.errors
    ensures file.name in registry && file.outcome.SchemaErrors? ==>
      && r.configs == acc.configs
      && |r.errors| == |acc.errors| + |file.outcome.violations|
      && r.errors[..|acc.errors|] == acc.errors
      && forall i :: 0 <= i < |file.outcome.violations| ==>
           r.errors[|acc.errors| + i] == SchemaError(file.outcome.violations[i])
    ensures file.name in registry && file.outcome.CreationFailure? ==>
      r.configs == acc.configs && r.errors == acc.errors + [CreationError(file.outcome.message)]
  {
    if file.name !in registry then acc
    else match file.outcome
      case Parsed(cfg) => ConfigLoadResult(Put(acc.configs, registry[file.name], cfg), acc.errors)
      case SchemaErrors(vs) =>
        var r := ConfigLoadResult(acc.configs, acc.errors + SchemaErrorsOf(vs));
        assert r.errors[..|acc.errors|] == acc.errors;
        r
      case CreationFailure(m) => ConfigLoadResult(acc.configs, acc.errors + [CreationError(m)])
  }

  /** `ConfigLoader._load_configs` over files in enumeration order. */
  function LoadFiles(registry: ModelRegistry, files: seq<File>): ConfigLoadResult
  {
    if |files| == 0 then EmptyResult
    else ProcessFile(registry, LoadFiles(registry, files[..|files| - 1]), files[|files| - 1])
  }

  /** The errors one file contributes on its own. */
  function FileErrors(registry: ModelRegistry, file: File): seq<Error>
  {
    ProcessFile(registry, EmptyResult, file).errors
  }

  /** A file adds no error iff it is unrecognised, constructed, or rejected
      with an empty violation list. */
  predicate Clean(registry: ModelRegistry, file: File)
  {
    file.name !in registry || file.outcome.Parsed? || (file.outcome.SchemaErrors? && |file.outcome.violations| == 0)
  }

  /** A file's errors are appended after everything collected before it. */
  lemma ProcessErrors(registry: ModelRegistry, acc: ConfigLoadResult, file: File)
    ensures ProcessFile(registry, acc, file).errors == acc.errors + FileErrors(registry, file)
  {
  }

  /** Errors never depend on the configs already loaded: the error list is
      the files' own errors concatenated in processing order. */
  lemma {:induction false} LoadErrorsAppend(registry: ModelRegistry, f1: seq<File>, f2: seq<File>)
    ensures LoadFiles(registry, f1 + f2).errors == LoadFiles(registry, f1).errors + LoadFiles(registry, f2).errors
    decreases |f2|
  {
    if |f2| == 0 {
      assert f1 + f2 == f1;
    } else {
      var n := |f2| - 1;
      assert (f1 + f2)[..|f1 + f2| - 1] == f1 + f2[..n];
      assert (f1 + f2)[|f1 + f2| - 1] == f2[n];
      LoadErrorsAppend(registry, f1, f2[..n]);
      ProcessErrors(registry, LoadFiles(registry, f1 + f2[..n]), f2[n]);
      ProcessErrors(registry, LoadFiles(registry, f2[..n]), f2[n]);
    }
  }

  /** A single file adds no error iff it is clean, and only ever adds
      single-config or creation errors. */
  lemma FileErrorsFacts(registry: ModelRegistry, file: File)
    ensures |FileErrors(registry, file)| == 0 <==> Clean(registry, file)
    ensures forall e :: e in FileErrors(registry, file) ==> e.kind == SingleConfig || e.kind == CreationFailed
  {
    if file.name in registry && file.outcome.SchemaErrors? {
      var es := FileErrors(registry, file);
      assert es == SchemaErrorsOf(file.outcome.violations);
      forall e | e in es
        ensures e.kind == SingleConfig
      {
        var i :| 0 <= i < |es| && es[i] == e;
        assert e == SchemaError(file.outcome.violations[i]);
      }
    }
  }

  /** The load reports no error iff every file is clean, and every error it
      reports is a single-config or a creation error. */
  lemma {:induction false} LoadErrorsIff(registry: ModelRegistry, files: seq<File>)
    ensures |LoadFiles(registry, files).errors| == 0 <==> forall i :: 0 <= i < |files| ==> Clean(registry, files[i])
    ensures forall e :: e in LoadFiles(registry, files).errors ==> e.kind == SingleConfig || e.kind == CreationFailed
  {
    if |files| > 0 {
      var n := |files| - 1;
      var prefix := files[..n];
      LoadErrorsIff(registry, prefix);
      assert forall i :: 0 <= i < n ==> prefix[i] == files[i];
      ProcessErrors(registry, LoadFiles(registry, prefix), files[n]);
      FileErrorsFacts(registry, files[n]);
      var before := LoadFiles(registry, prefix).errors;
      var own := FileErrors(registry, files[n]);
      assert LoadFiles(registry, files).errors == before + own;
      assert forall e :: e in before + own ==> e in before || e in own;
    }
  }

  /** The files' own errors, file after file in enumeration order. */
  function ErrorsInOrder(registry: ModelRegistry, files: seq<File>): seq<Error>
  {
    if |files| == 0 then [] else FileErrors(registry, files[0]) + ErrorsInOrder(registry, files[1..])
  }

  /** The collected error list is the files' own errors in enumeration order. */
  lemma {:induction false} LoadErrorsInOrder(registry: ModelRegistry, files: seq<File>)
    ensures LoadFiles(registry, files).errors == ErrorsInOrder(registry, files)
  {
    if |files| > 0 {
      assert files == [files[0]] + files[1..];
      LoadErrorsAppend(registry, [files[0]], files[1..]);
      ProcessErrors(registry, EmptyResult, files[0]);
      LoadErrorsInOrder(registry, files[1..]);
    }
  }

  /** `file` stores an instance under class `t`. */
  predicate Stores(registry: ModelRegistry, file: File, t: ConfigType)
  {
    file.name in registry && registry[file.name] == t && file.outcome.Parsed?
  }

  /** The loaded classes are exactly those some recognised file constructed. */
  lemma {:induction false} LoadedClasses(registry: ModelRegistry, files: seq<File>, t: ConfigType)
    ensures t in KeySeq(LoadFiles(registry, files).configs) <==> exists i :: 0 <= i < |files| && Stores(registry, files[i], t)
  {
    if |files| > 0 {
      var n := |files| - 1;
      LoadedClasses(registry, files[..n], t);
      assert forall i :: 0 <= i < n ==> files[..n][i] == files[i];
      LoadKeysStep(registry, files);
    }
  }

  /** Each loaded class is stored once. */
  lemma {:induction false} LoadedOnce(registry: ModelRegistry, files: seq<File>)
    ensures DistinctKeys(LoadFiles(registry, files).configs)
  {
    if |files| > 0 {
      var n := |files| - 1;
      LoadedOnce(registry, files[..n]);
      var f := files[n];
      if f.name in registry && f.outcome.Parsed? {
        PutDistinct(LoadFiles(registry, files[..n]).configs, registry[f.name], f.outcome.config);
      }
    }
  }

  /** What `unpack` hands back after a load: the classes some recognised
      file constructed, each stored once, and the files' own errors in
      enumeration order, empty iff every file is clean. */
  lemma UnpackLoad(registry: ModelRegistry, files: seq<File>, t: ConfigType)
    ensures DistinctKeys(LoadFiles(registry, files).Unpack().0)
    ensures t in KeySeq(LoadFiles(registry, files).Unpack().0) <==> exists i :: 0 <= i < |files| && Stores(registry, files[i], t)
    ensures LoadFiles(registry, files).Unpack().1 == ErrorsInOrder(registry, files)
    ensures |LoadFiles(registry, files).Unpack().1| == 0 <==> forall i :: 0 <= i < |files| ==> Clean(registry, files[i])
  {
    LoadedOnce(registry, files);
    LoadedClasses(registry, files, t);
    LoadErrorsInOrder(registry, files);
    LoadErrorsIff(registry, files);
  }

  /** One more file adds its class to the loaded classes when it stores an
      instance, and leaves them alone otherwise. */
  lemma LoadKeysStep(registry: ModelRegistry, files: seq<File>)
    requires |files| > 0
    ensures var last := files[|files| - 1];
      var before := KeySeq(LoadFiles(registry, files[..|files| - 1]).configs);
      forall t :: t in KeySeq(LoadFiles(registry, files).configs) <==> t in before || Stores(registry, last, t)
  {
    var n := |files| - 1;
    var f := files[n];
    if f.name in registry && f.outcome.Parsed? {
      PutKeys(LoadFiles(registry, files[..n]).configs, registry[f.name], f.outcome.config);
    }
  }

  /** The instance stored under a class is the one from the last file that
      constructed that class: a later file overwrites an earlier one. */
  lemma {:induction false} LastFileWins(registry: ModelRegistry, files: seq<File>, i: nat)
    requires i < |files|
    requires files[i].name in registry && files[i].outcome.Parsed?
    requires forall j :: i < j < |files| ==> !Stores(registry, files[j], registry[files[i].name])
    ensures Get(LoadFiles(registry, files).configs, registry[files[i].name]) == Some(files[i].outcome.config)
  {
    var n := |files| - 1;
    var t := registry[files[i].name];
    LoadGetStep(registry, files, t);
    if i < n {
      assert files[..n][i] == files[i];
      assert forall j :: i < j < n ==> files[..n][j] == files[j];
      LastFileWins(registry, files[..n], i);
    }
  }

  /** What one more file does to the instance stored under class `t`. */
  lemma LoadGetStep(registry: ModelRegistry, files: seq<File>, t: ConfigType)
    requires |files| > 0
    ensures var last := files[|files| - 1];
      var before := LoadFiles(registry, files[..|files| - 1]).configs;
      Get(LoadFiles(registry, files).configs, t) ==
        if Stores(registry, last, t) then Some(last.outcome.config) else Get(before, t)
  {
  }

  /** Loading keeps every instance under its own class when each file
      constructs an instance of the class registered for its name. */
  lemma {:induction false} LoadWellTyped(registry: ModelRegistry, files: seq<File>)
    requires forall i :: 0 <= i < |files| && files[i].name in registry && files[i].outcome.Parsed? ==>
      TypeOf(files[i].outcome.config) == registry[files[i].name]
    ensures WellTyped(LoadFiles(registry, files).configs)
  {
    if |files| > 0 {
      var n := |files| - 1;
      assert forall i :: 0 <= i < n ==> files[..n][i] == files[i];
      LoadWellTyped(registry, files[..n]);
      var acc := LoadFiles(registry, files[..n]).configs;
      var f := files[n];
      if f.name in registry && f.outcome.Parsed? {
        var t := registry[f.name];
        var r := Put(acc, t, f.outcome.config);
        forall j | 0 <= j < |r|
          ensures TypeOf(r[j].1) == r[j].0
        {
          PutAt(acc, t, f.outcome.config, j);
        }
      }
    }
  }

  /** What sits at position `j` after an assignment: the new value under
      its key, or the entry that was there before. */
  lemma {:induction false} PutAt(d: Configs, k: ConfigType, v: Config, j: nat)
    requires j < |Put(d, k, v)|
    ensures Put(d, k, v)[j] == (k, v) || (j < |d| && Put(d, k, v)[j] == d[j])
  {
    if |d| > 0 && d[0].0 != k && j > 0 {
      PutAt(d[1..], k, v, j - 1);
    }
  }

  /** The divider between renderings in strict mode: a line of 80 `#`. */
  const Divider: string := "\n" + Repeat('#', 80) + "\n"

  function Renderings(errors: seq<Error>, show: Value -> string): (r: seq<string>)
    ensures |r| == |errors|
    ensures forall i :: 0 <= i < |errors| ==> r[i] == Render(errors[i], show)
  {
    if |errors| == 0 then [] else [Render(errors[0], show)] + Renderings(errors[1..], show)
  }

  /** The message of the strict-mode `BaseValidationError`. */
  function StrictMessage(errors: seq<Error>, show: Value -> string): string
  {
    Join(Divider, Renderings(errors, show))
  }

  /** One error's message is its own rendering; each further error adds a
      divider and its rendering at the end. */
  lemma StrictMessageShape(errors: seq<Error>, e: Error, show: Value -> string)
    ensures StrictMessage([e], show) == Render(e, show)
    ensures |errors| > 0 ==> StrictMessage(errors + [e], show) == StrictMessage(errors, show) + Divider + Render(e, show)
  {
    if |errors| > 0 {
      assert Renderings(errors + [e], show) == Renderings(errors, show) + [Render(e, show)];
      JoinSnoc(Divider, Renderings(errors, show), Render(e, show));
    }
  }

  /** `ConfigLoader(dir).load_configs(should_raise_on_error)`: every file is
      attempted; in strict mode a non-empty error list becomes one
      `BaseValidationError` whose message joins the renderings. */
  method LoadConfigs(registry: ModelRegistry, files: seq<File>, shouldRaise: bool, show: Value -> string)
    returns (r: Result<ConfigLoadResult, Error>)
    ensures r.Failure? <==> shouldRaise && |LoadFiles(registry, files).errors| > 0
    ensures r.Success? ==> r.value == LoadFiles(registry, files)
    ensures r.Failure? ==> r.error == Error(Validation, StrictMessage(LoadFiles(registry, files).errors, show), [])
  {
    var result := EmptyResult;
    var i := 0;
    while i < |files|
      invariant 0 <= i <= |files|
      invariant result == LoadFiles(registry, files[..i])
    {
      result := ProcessFile(registry, result, files[i]);
      assert files[..i + 1][..i] == files[..i];
      i := i + 1;
    }
    assert files[..i] == files;
    if shouldRaise && |result.errors| > 0 {
      r := Failure(Error(Validation, StrictMessage(result.errors, show), []));
    } else {
      r := Success(result);
    }
  }
}

=== FILE: dicts.dfy ===
/** Python's `dict`: a finite map that remembers insertion order.
    Assigning to a key already present replaces its value in place. */
module Dicts {
  import opened Wrappers
  import opened Seqs

  type Dict<K, V> = seq<(K, V)>

  /** The keys in iteration order. */
  function KeySeq<K, V>(d: Dict<K, V>): (ks: seq<K>)
    ensures |ks| == |d|
    ensures forall i :: 0 <= i < |d| ==> ks[i] == d[i].0
  {
    if |d| == 0 then [] else [d[0].0] + KeySeq(d[1..])
  }

  /** `d.keys()` as a set. */
  function KeySet<K, V>(d: Dict<K, V>): set<K>
  {
    set k | k in KeySeq(d)
  }

  /** Python dicts never hold a key twice. */
  ghost predicate DistinctKeys<K, V>(d: Dict<K, V>)
  {
    Distinct(KeySeq(d))
  }

  /** `d.get(k)`. */
  function Get<K(==), V>(d: Dict<K, V>, k: K): (r: Option<V>)
    ensures r.Some? <==> k in KeySeq(d)
  {
    if |d| == 0 then None
    else if d[0].0 == k then Some(d[0].1)
    else Get(d[1..], k)
  }

  /** `d[k] = v`. */
  function Put<K(==,!new), V>(d: Dict<K, V>, k: K, v: V): (r: Dict<K, V>)
    ensures Get(r, k) == Some(v)
    ensures forall k' :: k' != k ==> Get(r, k') == Get(d, k')
  {
    if |d| == 0 then [(k, v)]
    else if d[0].0 == k then
      var r := [(k, v)] + d[1..];
      assert r[1..] == d[1..];
      r
    else
      var rest := Put(d[1..], k, v);
      var r := [d[0]] + rest;
      assert r[1..] == rest;
      r
  }

  /** Assignment keeps the iteration order: an existing key stays where it
      was, a new key goes last. */
  lemma {:induction false} PutKeys<K(!new), V>(d: Dict<K, V>, k: K, v: V)
    ensures KeySeq(Put(d, k, v)) == if k in KeySeq(d) then KeySeq(d) else KeySeq(d) + [k]
  {
    if |d| > 0 && d[0].0 != k {
      PutKeys(d[1..], k, v);
      assert Put(d, k, v)[1..] == Put(d[1..], k, v);
      assert KeySeq(d) == [d[0].0] + KeySeq(d[1..]);
    }
  }

  /** Assignment keeps a dict free of duplicate keys. */
  lemma PutDistinct<K(!new), V>(d: Dict<K, V>, k: K, v: V)
    requires DistinctKeys(d)
    ensures DistinctKeys(Put(d, k, v))
  {
    var r := Put(d, k, v);
    PutKeys(d, k, v);
    var ks, rs := KeySeq(d), KeySeq(r);
    forall i, j | 0 <= i < j < |r|
      ensures r[i].0 != r[j].0
    {
      assert rs[i] == r[i].0 && rs[j] == r[j].0;
      if j < |d| {
        assert rs[i] == ks[i] && rs[j] == ks[j];
      } else {
        assert k !in ks;
      }
    }
  }
}

=== FILE: exceptions.dfy ===
/** The structured error model of src/exceptions.py: a kind tag, a message
    and an ordered list of named attributes, with its canonical rendering. */
module Exceptions {
  import opened Wrappers
  import opened Strings
  import opened Models

  /** The exception classes. The four `Legacy*` kinds are the separate,
      same-named classes of src/validators/validation_exceptions.py. */
  datatype Kind =
    | Base                    // BaseException
    | Validation              // BaseValidationError
    | InvalidSignature        // InvalidValidationFunctionSignature
    | SingleConfig            // BaseSingleConfigValidationError
    | CrossConfig             // BaseCrossConfigValidationError
    | CreationFailed          // ConfigCreationFailedError
    | LegacyValidation
    | LegacyInvalidSignature
    | LegacySingleConfig
    | LegacyCrossConfig

  /** The direct base class of each exception class. */
  function Parent(k: Kind): Option<Kind>
  {
    match k
    case Base => None
    case Validation => Some(Base)
    case InvalidSignature => Some(Validation)
    case SingleConfig => Some(Validation)
    case CrossConfig => Some(Validation)
    case CreationFailed => Some(Base)
    case LegacyValidation => Some(Base)
    case LegacyInvalidSignature => Some(LegacyValidation)
    case LegacySingleConfig => Some(LegacyValidation)
    case LegacyCrossConfig => Some(LegacyValidation)
  }

  /** How many classes lie above `k` in the hierarchy. */
  function Depth(k: Kind): nat
  {
    match Parent(k)
    case None => 0
    case Some(p) => if p == Base then 1 else 2
  }

  /** Python's `issubclass(k, ancestor)`: `k` is `ancestor` or its parent is. */
  predicate IsA(k: Kind, ancestor: Kind)
    decreases Depth(k)
  {
    k == ancestor || (Parent(k).Some? && IsA(Parent(k).value, ancestor))
  }

  /** One step of a pydantic error location: a field name or a list index. */
  datatype LocStep = Field(field: string) | Index(index: int)

  /** An attribute value: a string, the underlying exception of a failed
      load (whose `str` is its message), a pydantic location (a tuple), the
      empty list a missing location defaults to, or a list of
      `inspect.Parameter`s. */
  datatype Value =
    | Text(text: string)
    | Cause(message: string)
    | Location(steps: seq<LocStep>)
    | EmptyList
    | Parameters(params: seq<Param>)

  type Attrs = seq<(string, Value)>

  /** An exception instance: `BaseException.__init__` keeps the message and
      the keyword arguments exactly as given, in call order. */
  datatype Error = Error(kind: Kind, msg: string, attrs: Attrs)

  /** What running a validation function on its arguments raises, for both
      validator registries: the errors it reports, in order. */
  type Apply = (ValidationFunc, seq<Config>) -> seq<Error>

  /** Python's `str(value)`. Strings, exceptions and the empty list render
      exactly; for other lists and tuples the rendering is the parameter
      `show`. */
  function ValueToString(v: Value, show: Value -> string): string
  {
    match v
    case Text(s) => s
    case Cause(m) => m
    case EmptyList => "[]"
    case _ => show(v)
  }

  /** The `key=value` line of one attribute. */
  function AttrLine(a: (string, Value), show: Value -> string): string
  {
    a.0 + "=" + ValueToString(a.1, show)
  }

  function AttrLines(attrs: Attrs, show: Value -> string): (lines: seq<string>)
    ensures |lines| == |attrs|
    ensures forall i :: 0 <= i < |attrs| ==> lines[i] == AttrLine(attrs[i], show)
  {
    if |attrs| == 0 then [] else [AttrLine(attrs[0], show)] + AttrLines(attrs[1..], show)
  }

  /** `BaseException.__str__`. */
  function Render(e: Error, show: Value -> string): (r: string)
    ensures |e.attrs| == 0 ==> r == "ERROR: " + e.msg + "\n"
    ensures "ERROR: " + e.msg + "\n" <= r
  {
    "ERROR: " + e.msg + "\n" + Join("\n", AttrLines(e.attrs, show))
  }

  /** `BaseException.__repr__` is `str(self)`. */
  function Repr(e: Error, show: Value -> string): string
  {
    Render(e, show)
  }

  /** What a reader can recover from a rendering: the message and the
      attribute names with their rendered values. */
  datatype Rendered = Rendered(msg: string, attrs: seq<(string, string)>)

  function RenderedAttrs(attrs: Attrs, show: Value -> string): (r: seq<(string, string)>)
    ensures |r| == |attrs|
    ensures forall i :: 0 <= i < |attrs| ==> r[i] == (attrs[i].0, ValueToString(attrs[i].1, show))
  {
    if |attrs| == 0 then [] else [(attrs[0].0, ValueToString(attrs[0].1, show))] + RenderedAttrs(attrs[1..], show)
  }

  /** Reads one `key=value` line per element, splitting at the first `=`. */
  function ParseAttrLines(lines: seq<string>): Option<seq<(string, string)>>
  {
    if |lines| == 0 then Some([])
    else match (Partition(lines[0], '='), ParseAttrLines(lines[1..]))
      case (Some(kv), Some(rest)) => Some([kv] + rest)
      case _ => None
  }

  /** Reads a rendering back: a header line `ERROR: msg`, then either one
      empty line (no attributes) or one `key=value` line per attribute. */
  function Parse(s: string): Option<Rendered>
  {
    var lines := Split(s, '\n');
    var header := lines[0];
    if |lines| < 2 || |header| < 7 || header[..7] != "ERROR: " then None
    else if lines[1..] == [""] then Some(Rendered(header[7..], []))
    else match ParseAttrLines(lines[1..])
      case Some(attrs) => Some(Rendered(header[7..], attrs))
      case None => None
  }

  /** An error whose rendering can be read back: no line break inside the
      message, an attribute name or a rendered value, and no `=` in a name
      (keyword-argument names are identifiers, so never do). */
  ghost predicate Readable(e: Error, show: Value -> string)
  {
    && '\n' !in e.msg
    && forall i :: 0 <= i < |e.attrs| ==>
         && '\n' !in e.attrs[i].0
         && '=' !in e.attrs[i].0
         && '\n' !in ValueToString(e.attrs[i].1, show)
  }

  lemma {:induction false} ParseAttrLinesOf(attrs: Attrs, show: Value -> string)
    requires forall i :: 0 <= i < |attrs| ==> '=' !in attrs[i].0
    ensures ParseAttrLines(AttrLines(attrs, show)) == Some(RenderedAttrs(attrs, show))
  {
    if |attrs| > 0 {
      var lines := AttrLines(attrs, show);
      PartitionCons(attrs[0].0, '=', ValueToString(attrs[0].1, show));
      assert lines[1..] == AttrLines(attrs[1..], show);
      ParseAttrLinesOf(attrs[1..], show);
    }
  }

  /** The rendering is a faithful serialisation: reading it back yields the
      message and every attribute's name and `str` value, in insertion order. */
  lemma ParseRender(e: Error, show: Value -> string)
    requires Readable(e, show)
    ensures Parse(Render(e, show)) == Some(Rendered(e.msg, RenderedAttrs(e.attrs, show)))
  {
    var header := "ERROR: " + e.msg;
    var lines := AttrLines(e.attrs, show);
    var body := Join("\n", lines);
    assert Render(e, show) == header + ['\n'] + body;
    SplitCons(header, '\n', body);
    var split := Split(Render(e, show), '\n');
    assert split[0] == header && split[1..] == Split(body, '\n');
    assert header[..7] == "ERROR: " && header[7..] == e.msg;
    if |e.attrs| == 0 {
      assert Split(body, '\n') == [""];
    } else {
      forall i | 0 <= i < |lines|
        ensures '\n' !in lines[i]
      {
        assert lines[i] == e.attrs[i].0 + "=" + ValueToString(e.attrs[i].1, show);
      }
      SplitJoin('\n', lines);
      assert '=' in lines[0];
      assert split[1..] != [""];
      ParseAttrLinesOf(e.attrs, show);
    }
  }

  /** `repr` of an error reads back like its `str`: the message and every
      attribute's name and `str` value, in insertion order. */
  lemma ReprReadsBack(e: Error, show: Value -> string)
    requires Readable(e, show)
    ensures Parse(Repr(e, show)) == Some(Rendered(e.msg, RenderedAttrs(e.attrs, show)))
  {
    ParseRender(e, show);
  }

  /** With no attributes the rendering is the header and its line break;
      otherwise it is the header, a line break and the `key=value` lines. */
  lemma RenderLines(e: Error, show: Value -> string)
    requires Readable(e, show)
    ensures |e.attrs| == 0 ==> Split(Render(e, show), '\n') == ["ERROR: " + e.msg, ""]
    ensures |e.attrs| > 0 ==> Split(Render(e, show), '\n') == ["ERROR: " + e.msg] + AttrLines(e.attrs, show)
  {
    var header := "ERROR: " + e.msg;
    var lines := AttrLines(e.attrs, show);
    assert Render(e, show) == header + ['\n'] + Join("\n", lines);
    SplitCons(header, '\n', Join("\n", lines));
    if |e.attrs| > 0 {
      forall i | 0 <= i < |lines|
        ensures '\n' !in lines[i]
      {
        assert lines[i] == e.attrs[i].0 + "=" + ValueToString(e.attrs[i].1, show);
      }
      SplitJoin('\n', lines);
    }
  }

  /** The validation-error family: the three specific validation errors are
      validation errors, the creation error and the legacy classes are not,
      and everything is a `BaseException`. */
  lemma KindHierarchy(k: Kind)
    ensures IsA(k, Base)
    ensures IsA(k, Validation) <==> k in {Validation, InvalidSignature, SingleConfig, CrossConfig}
    ensures IsA(k, LegacyValidation) <==> k in {LegacyValidation, LegacyInvalidSignature, LegacySingleConfig, LegacyCrossConfig}
  {
  }
}

=== FILE: feature_subfeature.dfy ===
/** The referential-integrity rule of
    src/cross_config_validations/feature_subfeature_validator.py: every
    subfeature name a feature references must be defined in the
    subfeature config, and each undefined name is reported once. */
module FeatureSubfeature {
  import opened Models
  import opened Exceptions
  import opened Seqs

  /** `{subfeature.name for subfeature in subfeature_config.subfeatures}`. */
  function DefinedNames(sc: SubFeatureConfig): set<string>
  {
    set s | s in sc.subfeatures :: s.name
  }

  /** `{name for feature in feature_config.features for name in feature.subfeature_names}`. */
  function ReferencedNames(fc: FeatureConfig): set<string>
  {
    set f, n | f in fc.features && n in f.subfeatureNames :: n
  }

  /** Every referenced name, feature by feature, in document order. */
  function AllReferences(features: seq<SingleFeatureConfig>): (r: seq<string>)
    ensures forall n :: n in r <==> exists f :: f in features && n in f.subfeatureNames
  {
    if |features| == 0 then []
    else
      var rest := AllReferences(features[1..]);
      assert forall f :: f in features[1..] ==> f in features;
      assert forall f :: f in features ==> f == features[0] || f in features[1..];
      features[0].subfeatureNames + rest
  }

  /** The names of `refs` not in `excluded`, each once, at its first occurrence. */
  function FirstOccurrences(refs: seq<string>, excluded: set<string>): (r: seq<string>)
    ensures forall n :: n in r <==> n in refs && n !in excluded
    ensures Distinct(r)
  {
    if |refs| == 0 then []
    else if refs[0] in excluded then FirstOccurrences(refs[1..], excluded)
    else
      var rest := FirstOccurrences(refs[1..], excluded + {refs[0]});
      assert refs[0] !in rest;
      [refs[0]] + rest
  }

  /** The undefined subfeature names, each once. Python iterates the set
      difference in hash order; this model lists the names in the order
      they are first referenced. */
  function UndefinedNames(fc: FeatureConfig, sc: SubFeatureConfig): (r: seq<string>)
    ensures Distinct(r)
    ensures forall n :: n in r <==> n in ReferencedNames(fc) - DefinedNames(sc)
    ensures |r| == |ReferencedNames(fc) - DefinedNames(sc)|
    ensures |r| == 0 <==> ReferencedNames(fc) <= DefinedNames(sc)
  {
    var r := FirstOccurrences(AllReferences(fc.features), DefinedNames(sc));
    forall n | n in r
      ensures n in ReferencedNames(fc)
    {
      var f :| f in fc.features && n in f.subfeatureNames;
    }
    assert (set n | n in r) == ReferencedNames(fc) - DefinedNames(sc);
    DistinctCard(r);
    assert |r| > 0 ==> r[0] in r;
    r
  }

  const UndefinedMessage := "Referenced subfeature is undefined"

  /** The `BaseCrossConfigValidationError` reported for one undefined name. */
  function UndefinedError(name: string): Error
  {
    Error(CrossConfig, UndefinedMessage, [("undefined_subfeature", Text(name))])
  }

  /** One error per name, in the order of the names. */
  function ErrorsFor(names: seq<string>): (r: seq<Error>)
    ensures |r| == |names|
    ensures forall i :: 0 <= i < |names| ==> r[i] == UndefinedError(names[i])
    ensures forall n :: UndefinedError(n) in r <==> n in names
    ensures Distinct(names) ==> Distinct(r)
  {
    if |names| == 0 then [] else [UndefinedError(names[0])] + ErrorsFor(names[1..])
  }

  /** `validate_feature_not_reference_non_existant_subfeature`. */
  function Validate(fc: FeatureConfig, sc: SubFeatureConfig): (r: seq<Error>)
    ensures forall e :: e in r ==>
      && e.kind == CrossConfig && e.msg == UndefinedMessage
      && |e.attrs| == 1 && e.attrs[0].0 == "undefined_subfeature" && e.attrs[0].1.Text?
    ensures forall n :: UndefinedError(n) in r <==> n in ReferencedNames(fc) && n !in DefinedNames(sc)
    ensures |r| == |ReferencedNames(fc) - DefinedNames(sc)|
    ensures Distinct(r)
    ensures |r| == 0 <==> ReferencedNames(fc) <= DefinedNames(sc)
  {
    ErrorsFor(UndefinedNames(fc, sc))
  }
}

=== FILE: legacy_validators.dfy ===
/** The older validator package, src/validators: a registry of
    (function, set of config types) pairs with no signature check, a runner
    that passes arguments in the order of the available-configs dict, and
    a subfeature validator whose message names the missing subfeature. */
module LegacyValidators {
  import opened Wrappers
  import opened Dicts
  import opened Models
  import opened Exceptions
  import opened Seqs
  import FeatureSubfeature

  datatype LegacyRegistration = LegacyRegistration(func: ValidationFunc, required: set<ConfigType>)

  /** `VALIDATORS_REGISTRY`, in registration order. */
  type LegacyRegistry = seq<LegacyRegistration>

  function ElementsOf(types: seq<ConfigType>): (s: set<ConfigType>)
    ensures forall t :: t in s <==> t in types
    ensures |s| <= |types|
  {
    if |types| == 0 then {}
    else
      var rest := ElementsOf(types[1..]);
      assert forall t :: t in types ==> t == types[0] || t in types[1..];
      {types[0]} + rest
  }

  /** `register_validator(*types)(f)`: appends `(f, set(types))`, accepting
      any types, and returns `f`. */
  function RegisterValidator(registry: LegacyRegistry, types: seq<ConfigType>, f: ValidationFunc): (r: (LegacyRegistry, ValidationFunc))
    ensures |r.0| == |registry| + 1
    ensures r.0[..|registry|] == registry
    ensures r.0[|registry|].func == f
    ensures forall t :: t in r.0[|registry|].required <==> t in types
    ensures |r.0[|registry|].required| <= |types|
    ensures r.1 == f
  {
    var r := registry + [LegacyRegistration(f, ElementsOf(types))];
    assert r[..|registry|] == registry;
    (r, f)
  }

  /** Listing a type twice registers it once. */
  lemma DuplicatesCollapse(registry: LegacyRegistry, t: ConfigType, f: ValidationFunc)
    ensures RegisterValidator(registry, [t, t], f).0[|registry|].required == {t}
  {
    var s := RegisterValidator(registry, [t, t], f).0[|registry|].required;
    assert forall u :: u in s <==> u == t;
  }

  /** The runner skips the validator when `required - available.keys()` is non-empty. */
  predicate LegacyRuns(entry: LegacyRegistration, available: Configs)
  {
    entry.required - KeySet(available) == {}
  }

  /** The instances whose type is in `types`, in the order of `items`. */
  function InstancesOf(types: set<ConfigType>, items: Configs): seq<Config>
  {
    if |items| == 0 then []
    else if items[0].0 in types then [items[0].1] + InstancesOf(types, items[1..])
    else InstancesOf(types, items[1..])
  }

  /** `[inst for t, inst in available.items() if t in required & available.keys()]`. */
  function LegacyArgs(required: set<ConfigType>, available: Configs): seq<Config>
  {
    InstancesOf(required * KeySet(available), available)
  }

  /** The keys of `ks` that are in `required`, in the order of `ks`. */
  function KeysIn(ks: seq<ConfigType>, required: set<ConfigType>): (r: seq<ConfigType>)
    ensures forall t :: t in r <==> t in ks && t in required
    ensures Distinct(ks) ==> Distinct(r)
  {
    if |ks| == 0 then []
    else if ks[0] in required then [ks[0]] + KeysIn(ks[1..], required)
    else KeysIn(ks[1..], required)
  }

  /** What one legacy registry entry adds to the error list. */
  function LegacyContribution(entry: LegacyRegistration, available: Configs, apply: Apply): seq<Error>
  {
    if LegacyRuns(entry, available) then apply(entry.func, LegacyArgs(entry.required, available)) else []
  }

  /** `run_validations` of src/validators/validations_runner.py. */
  function LegacyRun(registry: LegacyRegistry, available: Configs, apply: Apply): seq<Error>
  {
    if |registry| == 0 then []
    else LegacyRun(registry[..|registry| - 1], available, apply) + LegacyContribution(registry[|registry| - 1], available, apply)
  }

  /** A validator runs exactly when every required type is available; one
      with no required types always runs, with no arguments. */
  lemma LegacyRunsIff(entry: LegacyRegistration, available: Configs)
    ensures LegacyRuns(entry, available) <==> forall t :: t in entry.required ==> t in KeySeq(available)
    ensures entry.required == {} ==> LegacyRuns(entry, available) && LegacyArgs(entry.required, available) == []
  {
    if forall t :: t in entry.required ==> t in KeySeq(available) {
      assert forall t :: t !in entry.required - KeySet(available);
    } else {
      var t :| t in entry.required && t !in KeySeq(available);
      assert t in entry.required - KeySet(available);
    }
    if entry.required == {} {
      assert entry.required * KeySet(available) == {};
      InstancesOfNone(available);
    }
  }

  lemma {:induction false} InstancesOfNone(items: Configs)
    ensures InstancesOf({}, items) == []
  {
    if |items| > 0 {
      InstancesOfNone(items[1..]);
    }
  }

  /** Intersecting with a superset of the keys changes nothing. */
  lemma {:induction false} InstancesOfKeys(types: set<ConfigType>, keys: set<ConfigType>, items: Configs)
    requires forall i :: 0 <= i < |items| ==> items[i].0 in keys
    ensures InstancesOf(types * keys, items) == InstancesOf(types, items)
  {
    if |items| > 0 {
      assert forall i :: 0 <= i < |items| - 1 ==> items[1..][i] == items[i + 1];
      InstancesOfKeys(types, keys, items[1..]);
    }
  }

  /** The arguments are the instances of the required types taken in the
      dict's insertion order: position `i` holds the instance of the `i`-th
      required key in iteration order, whatever order the types were given. */
  lemma LegacyArgsInDictOrder(required: set<ConfigType>, available: Configs)
    requires DistinctKeys(available)
    ensures |LegacyArgs(required, available)| == |KeysIn(KeySeq(available), required)|
    ensures forall i :: 0 <= i < |LegacyArgs(required, available)| ==>
      Get(available, KeysIn(KeySeq(available), required)[i]) == Some(LegacyArgs(required, available)[i])
  {
    InstancesOfKeys(required, KeySet(available), available);
    InstancesInOrder(required, available);
  }

  lemma DistinctTail(items: Configs)
    requires DistinctKeys(items)
    requires |items| > 0
    ensures DistinctKeys(items[1..])
    ensures items[0].0 !in KeySeq(items[1..])
    ensures forall t :: t in KeySeq(items[1..]) ==> Get(items, t) == Get(items[1..], t)
  {
    var rest := items[1..];
    forall i, j | 0 <= i < j < |rest|
      ensures rest[i].0 != rest[j].0
    {
      assert rest[i] == items[i + 1] && rest[j] == items[j + 1];
    }
    forall i | 0 <= i < |rest|
      ensures rest[i].0 != items[0].0
    {
      assert rest[i] == items[i + 1];
    }
  }

  lemma {:induction false} InstancesInOrder(required: set<ConfigType>, items: Configs)
    requires DistinctKeys(items)
    ensures |InstancesOf(required, items)| == |KeysIn(KeySeq(items), required)|
    ensures forall i :: 0 <= i < |InstancesOf(required, items)| ==>
      Get(items, KeysIn(KeySeq(items), required)[i]) == Some(InstancesOf(required, items)[i])
  {
    if |items| > 0 {
      var rest := items[1..];
      var k := items[0].0;
      assert KeySeq(items)[1..] == KeySeq(rest);
      DistinctTail(items);
      InstancesInOrder(required, rest);
      var tailArgs := InstancesOf(required, rest);
      var tailKeys := KeysIn(KeySeq(rest), required);
      var args := InstancesOf(required, items);
      var keys := KeysIn(KeySeq(items), required);
      if k in required {
        assert args == [items[0].1] + tailArgs;
        assert keys == [k] + tailKeys;
        forall i | 0 <= i < |args|
          ensures Get(items, keys[i]) == Some(args[i])
        {
          if i > 0 {
            assert keys[i] == tailKeys[i - 1] && args[i] == tailArgs[i - 1];
            assert keys[i] in KeySeq(rest);
          }
        }
      } else {
        assert args == tailArgs;
        assert keys == tailKeys;
        forall i | 0 <= i < |args|
          ensures Get(items, keys[i]) == Some(args[i])
        {
          assert keys[i] in KeySeq(rest);
        }
      }
    }
  }

  /** A validator that runs gets exactly one instance per required type. */
  lemma LegacyArgCount(entry: LegacyRegistration, available: Configs)
    requires DistinctKeys(available)
    requires LegacyRuns(entry, available)
    ensures |LegacyArgs(entry.required, available)| == |entry.required|
  {
    var ks := KeysIn(KeySeq(available), entry.required);
    LegacyRunsIff(entry, available);
    assert (set t | t in ks) == entry.required;
    DistinctCard(ks);
    LegacyArgsInDictOrder(entry.required, available);
  }

  /** A skipped validator adds nothing; a runnable one adds exactly its own
      output, after everything registered before it. */
  lemma LegacyRunSnoc(registry: LegacyRegistry, entry: LegacyRegistration, available: Configs, apply: Apply)
    ensures !LegacyRuns(entry, available) ==> LegacyRun(registry + [entry], available, apply) == LegacyRun(registry, available, apply)
    ensures LegacyRuns(entry, available) ==>
      LegacyRun(registry + [entry], available, apply) ==
        LegacyRun(registry, available, apply) + apply(entry.func, LegacyArgs(entry.required, available))
  {
    assert (registry + [entry])[..|registry|] == registry;
  }

  /** `e` is among the errors returned by a legacy validator that runs. */
  ghost predicate RaisedByLegacyRunner(e: Error, registry: LegacyRegistry, available: Configs, apply: Apply)
  {
    exists i :: 0 <= i < |registry| && LegacyRuns(registry[i], available) &&
      e in apply(registry[i].func, LegacyArgs(registry[i].required, available))
  }

  /** Every reported error comes from a legacy validator that ran, and every
      error of a legacy validator that ran is reported. */
  lemma {:induction false} LegacyRunMembership(registry: LegacyRegistry, available: Configs, apply: Apply)
    ensures forall e :: e in LegacyRun(registry, available, apply) <==> RaisedByLegacyRunner(e, registry, available, apply)
  {
    if |registry| > 0 {
      var n := |registry| - 1;
      var prefix := registry[..n];
      LegacyRunMembership(prefix, available, apply);
      forall e
        ensures e in LegacyRun(registry, available, apply) <==> RaisedByLegacyRunner(e, registry, available, apply)
      {
        if e in LegacyRun(prefix, available, apply) {
          var i :| 0 <= i < |prefix| && LegacyRuns(prefix[i], available) &&
            e in apply(prefix[i].func, LegacyArgs(prefix[i].required, available));
          assert registry[i] == prefix[i];
        }
        if RaisedByLegacyRunner(e, registry, available, apply) {
          var i :| 0 <= i < |registry| && LegacyRuns(registry[i], available) &&
            e in apply(registry[i].func, LegacyArgs(registry[i].required, available));
          if i < n {
            assert prefix[i] == registry[i];
          }
        }
      }
    }
  }

  /** The legacy `BaseValidationError` for one undefined name. */
  function LegacyUndefinedError(name: string): Error
  {
    Error(LegacyValidation, "Referenced subfeature " + name + " is undefined", [("undefined_subfeature", Text(name))])
  }

  function LegacyErrorsFor(names: seq<string>): (r: seq<Error>)
    ensures |r| == |names|
    ensures forall i :: 0 <= i < |names| ==> r[i] == LegacyUndefinedError(names[i])
    ensures forall n :: LegacyUndefinedError(n) in r <==> n in names
    ensures Distinct(names) ==> Distinct(r)
  {
    if |names| == 0 then [] else [LegacyUndefinedError(names[0])] + LegacyErrorsFor(names[1..])
  }

  /** `validate_feature_not_reference_non_existant_subfeature` of
      src/validators/feature_subfeature_validator.py. */
  function LegacyValidate(fc: FeatureConfig, sc: SubFeatureConfig): (r: seq<Error>)
    ensures forall e :: e in r ==>
      && e.kind == LegacyValidation
      && |e.attrs| == 1 && e.attrs[0].0 == "undefined_subfeature" && e.attrs[0].1.Text?
      && e.msg == "Referenced subfeature " + e.attrs[0].1.text + " is undefined"
    ensures forall n :: LegacyUndefinedError(n) in r <==>
      n in FeatureSubfeature.ReferencedNames(fc) && n !in FeatureSubfeature.DefinedNames(sc)
    ensures |r| == |FeatureSubfeature.ReferencedNames(fc) - FeatureSubfeature.DefinedNames(sc)|
    ensures Distinct(r)
    ensures |r| == 0 <==> FeatureSubfeature.ReferencedNames(fc) <= FeatureSubfeature.DefinedNames(sc)
  {
    LegacyErrorsFor(FeatureSubfeature.UndefinedNames(fc, sc))
  }
}

=== FILE: models.dfy ===
/** The configuration classes (the modules under src/models) and the parts of a Python
    function signature the validator registry inspects. Field schemas are
    enforced by the schema library and are not part of this model: only
    the shapes of the validated instances are. */
module Models {
  import opened Dicts

  /** A subclass of `BaseConfig`, identified by its class name. */
  datatype ConfigType = ConfigType(name: string)

  const FeatureConfigType := ConfigType("FeatureConfig")
  const SubFeatureConfigType := ConfigType("SubFeatureConfig")
  const DatabaseConfigType := ConfigType("DatabaseConfig")
  const MyNewThingConfigType := ConfigType("MyNewThingConfig")

  datatype SingleFeatureConfig = SingleFeatureConfig(name: string, subfeatureNames: seq<string>)
  datatype FeatureConfig = FeatureConfig(features: seq<SingleFeatureConfig>)

  datatype SingleSubFeatureConfig = SingleSubFeatureConfig(name: string)
  datatype SubFeatureConfig = SubFeatureConfig(subfeatures: seq<SingleSubFeatureConfig>)

  datatype DatabaseConfig = DatabaseConfig(host: string, port: string)
  datatype MyNewThingConfig = MyNewThingConfig(name: string, statuses: seq<string>)

  /** A validated instance of one of the registered configuration classes. */
  datatype Config =
    | FeatureCfg(feature: FeatureConfig)
    | SubFeatureCfg(subfeature: SubFeatureConfig)
    | DatabaseCfg(database: DatabaseConfig)
    | MyNewThingCfg(myNewThing: MyNewThingConfig)

  /** The class an instance belongs to (Python's `type(instance)`). */
  function TypeOf(c: Config): ConfigType
  {
    match c
    case FeatureCfg(_) => FeatureConfigType
    case SubFeatureCfg(_) => SubFeatureConfigType
    case DatabaseCfg(_) => DatabaseConfigType
    case MyNewThingCfg(_) => MyNewThingConfigType
  }

  /** The loaded configurations keyed by class (`dict[type[BaseConfig], BaseConfig]`). */
  type Configs = Dict<ConfigType, Config>

  /** Every instance sits under its own class. */
  ghost predicate WellTyped(configs: Configs)
  {
    forall i :: 0 <= i < |configs| ==> TypeOf(configs[i].1) == configs[i].0
  }

  /** A parameter's type annotation: a `BaseConfig` subclass, or another
      class (a built-in type, an unrelated class, or no annotation at all,
      which Python reports as the class `inspect.Parameter.empty`).
      Annotations that are not classes (a string annotation, `list[int]`,
      `X | None`) make `issubclass` raise `TypeError` at registration; they
      are outside this model. */
  datatype Annotation = ConfigAnnotation(configType: ConfigType) | OtherAnnotation(typeName: string)

  datatype Param = Param(name: string, annotation: Annotation)

  /** A validation function as the registries see it: its names and its
      declared parameters. What it computes is supplied separately. */
  datatype ValidationFunc = ValidationFunc(name: string, qualname: string, params: seq<Param>)
}

=== FILE: scenarios.dfy ===
/** End-to-end behaviour of the two pipelines: the rejected signature of
    tests/unit_tests/test_registries.py, an example with one undefined
    subfeature, and the argument-order difference between the legacy and
    the current runner. */
module Scenarios {
  import opened Wrappers
  import opened Dicts
  import opened Models
  import opened Exceptions
  import opened ValidatorRegistry
  import opened ValidationsRunner
  import opened FeatureSubfeature
  import opened ConfigLoader
  import opened LegacyValidators

  /** The subfeature validator's signature as `inspect.signature` reports it. */
  const SubfeatureValidator := ValidationFunc(
    "validate_feature_not_reference_non_existant_subfeature",
    "validate_feature_not_reference_non_existant_subfeature",
    [Param("feature_config", ConfigAnnotation(FeatureConfigType)),
     Param("subfeature_config", ConfigAnnotation(SubFeatureConfigType))])

  /** What the registered validators compute: the subfeature rule for its
      own function called with a feature and a subfeature config, nothing
      otherwise. Python would raise on arguments of the wrong classes; the
      runners here assume every validator returns normally. */
  function Validators(f: ValidationFunc, args: seq<Config>): seq<Error>
  {
    if f == SubfeatureValidator && |args| == 2 && args[0].FeatureCfg? && args[1].SubFeatureCfg?
    then Validate(args[0].feature, args[1].subfeature)
    else []
  }

  /** tests/unit_tests/test_registries.py: a function taking `num: int` is
      rejected, the error names the function and lists `num`, and the
      registry does not grow. */
  lemma RejectsNonConfigParameter(registry: Registry)
    ensures var f := ValidationFunc("validation_with_non_config_objs_in_signature",
                                    "test_register__validation.<locals>.validation_with_non_config_objs_in_signature",
                                    [Param("num", OtherAnnotation("int"))]);
      var r := RegisterValidation(registry, f);
      && r.0 == registry
      && r.1.Failure?
      && r.1.error.kind == InvalidSignature
      && r.1.error.attrs[0] == ("func", Text(f.name))
      && r.1.error.attrs[1] == ("invalid_parameters", Parameters([Param("num", OtherAnnotation("int"))]))
  {
    var f := ValidationFunc("validation_with_non_config_objs_in_signature",
                            "test_register__validation.<locals>.validation_with_non_config_objs_in_signature",
                            [Param("num", OtherAnnotation("int"))]);
    assert !IsConfigParam(f.params[0]);
    assert f.params[1..] == [];
    assert InvalidParams(f.params) == f.params;
    assert RegisterValidation(registry, f) == (registry, Failure(SignatureError(f)));
  }

  /** The subfeature validator registers with its two types in declared order. */
  lemma RegistersSubfeatureValidator()
    ensures RegisterValidation([], SubfeatureValidator) ==
      ([Registration(SubfeatureValidator, [FeatureConfigType, SubFeatureConfigType])], Success(SubfeatureValidator))
  {
    var ps := SubfeatureValidator.params;
    assert ps[1..][1..] == [];
    assert RequiredTypes(ps) == [FeatureConfigType, SubFeatureConfigType];
    RegisterOneValid([], SubfeatureValidator);
  }

  const F1 := SingleFeatureConfig("f1", ["sub_1", "sub_3"])
  const Features := FeatureConfig([F1])
  const Subfeatures := SubFeatureConfig([SingleSubFeatureConfig("sub_1")])

  /** Feature `f1` references `sub_1` and `sub_3`; only `sub_1` is defined. */
  lemma ReferencedVersusDefined()
    ensures ReferencedNames(Features) - DefinedNames(Subfeatures) == {"sub_3"}
  {
    assert "sub_1" in F1.subfeatureNames && "sub_3" in F1.subfeatureNames;
    assert ReferencedNames(Features) == {"sub_1", "sub_3"};
    assert DefinedNames(Subfeatures) == {"sub_1"};
  }

  /** The default model registry maps the feature and subfeature file names
      to their classes. */
  lemma DefaultModelRegistry()
    ensures KnowsModels(RegisterModels(map[], DefaultModels))
  {
    LastRegistrationValue(map[], DefaultModels, 1);
    LastRegistrationValue(map[], DefaultModels, 3);
  }

  lemma LoadTwo(registry: ModelRegistry, a: File, b: File)
    ensures LoadFiles(registry, [a, b]) == ProcessFile(registry, ProcessFile(registry, EmptyResult, a), b)
  {
    assert [a, b][..1] == [a];
    assert [a][..0] == [];
    assert LoadFiles(registry, [a]) == ProcessFile(registry, LoadFiles(registry, []), a);
    assert LoadFiles(registry, [a, b]) == ProcessFile(registry, LoadFiles(registry, [a]), b);
  }

  const SubfeatureEntry := Registration(SubfeatureValidator, [FeatureConfigType, SubFeatureConfigType])

  /** The configs of the example with one undefined subfeature, feature
      file first. */
  const Loaded: Configs := [(FeatureConfigType, FeatureCfg(Features)), (SubFeatureConfigType, SubFeatureCfg(Subfeatures))]

  /** With a feature and a subfeature config loaded, in either order, the
      runner holding only the subfeature validator reports exactly what
      that validator returns for the pair. */
  lemma UndefinedSubfeatureRun(fc: FeatureConfig, sc: SubFeatureConfig, featureFirst: bool)
    ensures var available := if featureFirst then [(FeatureConfigType, FeatureCfg(fc)), (SubFeatureConfigType, SubFeatureCfg(sc))]
                             else [(SubFeatureConfigType, SubFeatureCfg(sc)), (FeatureConfigType, FeatureCfg(fc))];
      Run([SubfeatureEntry], available, Validators) == Validate(fc, sc)
  {
    var available := if featureFirst then [(FeatureConfigType, FeatureCfg(fc)), (SubFeatureConfigType, SubFeatureCfg(sc))]
                     else [(SubFeatureConfigType, SubFeatureCfg(sc)), (FeatureConfigType, FeatureCfg(fc))];
    SubfeatureArgs(available, fc, sc);
    RunSnoc([], SubfeatureEntry, available, Validators);
    assert [] + [SubfeatureEntry] == [SubfeatureEntry];
  }

  lemma SubfeatureArgs(available: Configs, fc: FeatureConfig, sc: SubFeatureConfig)
    requires Get(available, FeatureConfigType) == Some(FeatureCfg(fc))
    requires Get(available, SubFeatureConfigType) == Some(SubFeatureCfg(sc))
    ensures Runs(SubfeatureEntry, available)
    ensures Args(SubfeatureEntry, available) == [FeatureCfg(fc), SubFeatureCfg(sc)]
  {
    assert Lookups(SubfeatureEntry.required, available) == [Some(FeatureCfg(fc)), Some(SubFeatureCfg(sc))];
  }

  /** On feature `f1` and subfeature `sub_1` the validator reports exactly
      one error, naming `sub_3`. */
  lemma UndefinedSubfeatureReported()
    ensures Validate(Features, Subfeatures) == [UndefinedError("sub_3")]
  {
    ReferencedVersusDefined();
    var r := Validate(Features, Subfeatures);
    assert UndefinedError("sub_3") in r;
    assert |r| == 1;
  }

  /** The model registry of src/models, as far as these scenarios need it. */
  ghost predicate KnowsModels(models: ModelRegistry)
  {
    && "FeatureConfig.json" in models && models["FeatureConfig.json"] == FeatureConfigType
    && "SubFeatureConfig.json" in models && models["SubFeatureConfig.json"] == SubFeatureConfigType
  }

  /** Loading the two files of the example with one undefined subfeature
      succeeds with no
      error and stores both configs, in enumeration order. */
  lemma UndefinedSubfeatureLoad(models: ModelRegistry)
    requires KnowsModels(models)
    ensures LoadFiles(models, [File("FeatureConfig.json", Parsed(FeatureCfg(Features))),
                               File("SubFeatureConfig.json", Parsed(SubFeatureCfg(Subfeatures)))])
      == ConfigLoadResult(Loaded, [])
  {
    var a := File("FeatureConfig.json", Parsed(FeatureCfg(Features)));
    var b := File("SubFeatureConfig.json", Parsed(SubFeatureCfg(Subfeatures)));
    LoadTwo(models, a, b);
    var first := ProcessFile(models, EmptyResult, a);
    assert first == ConfigLoadResult([(FeatureConfigType, FeatureCfg(Features))], []);
    assert Put(first.configs, SubFeatureConfigType, SubFeatureCfg(Subfeatures)) == Loaded;
  }

  /** A feature file rejected by the schema yields its single-config error
      and no feature config, so the subfeature validator is skipped. */
  lemma SchemaFailureSkipsValidator(models: ModelRegistry, v: Violation)
    requires KnowsModels(models)
    ensures var loaded := LoadFiles(models, [File("FeatureConfig.json", SchemaErrors([v])),
                                             File("SubFeatureConfig.json", Parsed(SubFeatureCfg(Subfeatures)))]);
      && loaded.errors == [SchemaError(v)]
      && loaded.configs == [(SubFeatureConfigType, SubFeatureCfg(Subfeatures))]
      && Run([SubfeatureEntry], loaded.configs, Validators) == []
  {
    var a := File("FeatureConfig.json", SchemaErrors([v]));
    var b := File("SubFeatureConfig.json", Parsed(SubFeatureCfg(Subfeatures)));
    LoadTwo(models, a, b);
    var first := ProcessFile(models, EmptyResult, a);
    assert first.configs == [];
    assert first.errors == [SchemaError(v)];
    var configs := [(SubFeatureConfigType, SubFeatureCfg(Subfeatures))];
    assert Get(configs, FeatureConfigType) == None;
    assert Lookups(SubfeatureEntry.required, configs)[0] == None;
    assert [SubfeatureEntry][..0] == [];
  }

  /** What the legacy registry's functions compute: the legacy subfeature
      rule for its own function called with a feature and a subfeature
      config, nothing otherwise. The legacy validator has the same name and
      signature as the current one. */
  function LegacyValidatorFuncs(f: ValidationFunc, args: seq<Config>): seq<Error>
  {
    if f == SubfeatureValidator && |args| == 2 && args[0].FeatureCfg? && args[1].SubFeatureCfg?
    then LegacyValidate(args[0].feature, args[1].subfeature)
    else []
  }

  /** The legacy subfeature validator, registered for the feature and
      subfeature config classes, runs on a feature-first configs dict and
      its errors are exactly the legacy run's result. */
  lemma LegacyUndefinedSubfeatureRun(fc: FeatureConfig, sc: SubFeatureConfig)
    ensures var registry := RegisterValidator([], [FeatureConfigType, SubFeatureConfigType], SubfeatureValidator).0;
      var available := [(FeatureConfigType, FeatureCfg(fc)), (SubFeatureConfigType, SubFeatureCfg(sc))];
      LegacyRun(registry, available, LegacyValidatorFuncs) == LegacyValidate(fc, sc)
  {
    var registry := RegisterValidator([], [FeatureConfigType, SubFeatureConfigType], SubfeatureValidator).0;
    var entry := registry[0];
    assert registry == [] + [entry];
    assert entry.required == {FeatureConfigType, SubFeatureConfigType};
    LegacySubfeatureArgs(fc, sc);
    LegacyRunSnoc([], entry, [(FeatureConfigType, FeatureCfg(fc)), (SubFeatureConfigType, SubFeatureCfg(sc))], LegacyValidatorFuncs);
  }

  lemma LegacySubfeatureArgs(fc: FeatureConfig, sc: SubFeatureConfig)
    ensures var available := [(FeatureConfigType, FeatureCfg(fc)), (SubFeatureConfigType, SubFeatureCfg(sc))];
      && LegacyRuns(LegacyRegistration(SubfeatureValidator, {FeatureConfigType, SubFeatureConfigType}), available)
      && LegacyArgs({FeatureConfigType, SubFeatureConfigType}, available) == [FeatureCfg(fc), SubFeatureCfg(sc)]
  {
    var req := {FeatureConfigType, SubFeatureConfigType};
    var available := [(FeatureConfigType, FeatureCfg(fc)), (SubFeatureConfigType, SubFeatureCfg(sc))];
    assert KeySeq(available) == [FeatureConfigType, SubFeatureConfigType];
    assert KeySet(available) == req;
    assert req * KeySet(available) == req;
    assert available[1..][1..] == [];
    assert InstancesOf(req, available[1..][1..]) == [];
    assert InstancesOf(req, available[1..]) == [SubFeatureCfg(sc)];
  }

  /** Enumerating the subfeature file before the feature file loads the
      subfeature config first, with no error. */
  lemma SubfeatureFirstLoad(models: ModelRegistry)
    requires KnowsModels(models)
    ensures LoadFiles(models, [File("SubFeatureConfig.json", Parsed(SubFeatureCfg(Subfeatures))),
                               File("FeatureConfig.json", Parsed(FeatureCfg(Features)))])
      == ConfigLoadResult([(SubFeatureConfigType, SubFeatureCfg(Subfeatures)), (FeatureConfigType, FeatureCfg(Features))], [])
  {
    var a := File("SubFeatureConfig.json", Parsed(SubFeatureCfg(Subfeatures)));
    var b := File("FeatureConfig.json", Parsed(FeatureCfg(Features)));
    LoadTwo(models, a, b);
    var first := ProcessFile(models, EmptyResult, a);
    assert first == ConfigLoadResult([(SubFeatureConfigType, SubFeatureCfg(Subfeatures))], []);
    assert Put(first.configs, FeatureConfigType, FeatureCfg(Features)) ==
      [(SubFeatureConfigType, SubFeatureCfg(Subfeatures)), (FeatureConfigType, FeatureCfg(Features))];
  }

  /** The legacy runner hands a validator registered for
      `{FeatureConfig, SubFeatureConfig}` its arguments in the order the
      configs were loaded: when the subfeature file is enumerated first, the
      `feature_config` parameter receives the `SubFeatureConfig`. */
  lemma LegacyArgumentOrderFollowsLoading()
    ensures var available := [(SubFeatureConfigType, SubFeatureCfg(Subfeatures)), (FeatureConfigType, FeatureCfg(Features))];
      && LegacyArgs({FeatureConfigType, SubFeatureConfigType}, available) == [SubFeatureCfg(Subfeatures), FeatureCfg(Features)]
      && TypeOf(LegacyArgs({FeatureConfigType, SubFeatureConfigType}, available)[0]) != FeatureConfigType
  {
    var available := [(SubFeatureConfigType, SubFeatureCfg(Subfeatures)), (FeatureConfigType, FeatureCfg(Features))];
    var req := {FeatureConfigType, SubFeatureConfigType};
    assert KeySeq(available) == [SubFeatureConfigType, FeatureConfigType];
    assert KeySet(available) == req;
    assert req * KeySet(available) == req;
    assert available[1..][1..] == [];
    assert InstancesOf(req, available[1..][1..]) == [];
    assert InstancesOf(req, available[1..]) == [FeatureCfg(Features)];
  }

  /** The current runner passes the same configs, whichever was loaded
      first, in the declared `(feature_config, subfeature_config)` order. */
  lemma DeclaredOrderWhateverTheLoadingOrder()
    ensures var entry := Registration(SubfeatureValidator, [FeatureConfigType, SubFeatureConfigType]);
      var available := [(SubFeatureConfigType, SubFeatureCfg(Subfeatures)), (FeatureConfigType, FeatureCfg(Features))];
      && Runs(entry, available)
      && Args(entry, available) == [FeatureCfg(Features), SubFeatureCfg(Subfeatures)]
  {
    var entry := Registration(SubfeatureValidator, [FeatureConfigType, SubFeatureConfigType]);
    var available := [(SubFeatureConfigType, SubFeatureCfg(Subfeatures)), (FeatureConfigType, FeatureCfg(Features))];
    assert Get(available, FeatureConfigType) == Some(FeatureCfg(Features));
    assert Get(available, SubFeatureConfigType) == Some(SubFeatureCfg(Subfeatures));
    assert Lookups(entry.required, available) == [Some(FeatureCfg(Features)), Some(SubFeatureCfg(Subfeatures))];
  }
}

=== FILE: seqs.dfy ===
/** Facts about duplicate-free sequences. */
module Seqs {

  ghost predicate Distinct<T>(s: seq<T>)
  {
    forall i, j :: 0 <= i < j < |s| ==> s[i] != s[j]
  }

  /** A duplicate-free sequence has as many elements as its set. */
  lemma {:induction false} DistinctCard<T>(s: seq<T>)
    requires Distinct(s)
    ensures |set x | x in s| == |s|
  {
    if |s| > 0 {
      var tail := s[1..];
      assert Distinct(tail) by {
        forall i, j | 0 <= i < j < |tail|
          ensures tail[i] != tail[j]
        {
          assert tail[i] == s[i + 1] && tail[j] == s[j + 1];
        }
      }
      DistinctCard(tail);
      assert (set x | x in s) == {s[0]} + (set x | x in tail);
      assert s[0] !in tail by {
        forall i | 0 <= i < |tail|
          ensures tail[i] != s[0]
        {
          assert tail[i] == s[i + 1];
        }
      }
    }
  }
}

=== FILE: strings.dfy ===
/** Joining and splitting strings the way Python's `str.join` and
    `str.split(c)` / `str.partition(c)` do, with the round-trip lemmas
    that let a rendering be read back. */
module Strings {
  import opened Wrappers

  /** Python's `sep.join(xs)`. */
  function Join(sep: string, xs: seq<string>): string
  {
    if |xs| == 0 then ""
    else if |xs| == 1 then xs[0]
    else xs[0] + sep + Join(sep, xs[1..])
  }

  /** `c * n` for a one-character string `c`. */
  function Repeat(c: char, n: nat): (r: string)
    ensures |r| == n
    ensures forall i :: 0 <= i < n ==> r[i] == c
  {
    if n == 0 then "" else Repeat(c, n - 1) + [c]
  }

  /** Position of the first `c` in `s`, or `|s|` when there is none. */
  function FirstIndex(s: string, c: char): (i: nat)
    ensures i <= |s|
    ensures i < |s| ==> s[i] == c
    ensures forall j :: 0 <= j < i ==> s[j] != c
  {
    if |s| == 0 then 0
    else if s[0] == c then 0
    else 1 + FirstIndex(s[1..], c)
  }

  /** Python's `s.split(c)`: the pieces between occurrences of `c`. */
  function Split(s: string, c: char): (r: seq<string>)
    ensures |r| > 0
    decreases |s|
  {
    var i := FirstIndex(s, c);
    if i == |s| then [s] else [s[..i]] + Split(s[i + 1..], c)
  }

  /** Python's `s.partition(c)` when `c` occurs in `s`; `None` otherwise. */
  function Partition(s: string, c: char): Option<(string, string)>
  {
    var i := FirstIndex(s, c);
    if i == |s| then None else Some((s[..i], s[i + 1..]))
  }

  lemma FirstIndexAfter(a: string, c: char, b: string)
    requires c !in a
    ensures FirstIndex(a + [c] + b, c) == |a|
  {
    var s := a + [c] + b;
    var i := FirstIndex(s, c);
    assert s[|a|] == c;
    assert forall j :: 0 <= j < |a| ==> s[j] == a[j];
  }

  /** Splitting at the first separator gives back the part before it. */
  lemma SplitCons(a: string, c: char, b: string)
    requires c !in a
    ensures Split(a + [c] + b, c) == [a] + Split(b, c)
  {
    var s := a + [c] + b;
    FirstIndexAfter(a, c, b);
    assert s[..|a|] == a;
    assert s[|a| + 1..] == b;
  }

  lemma SplitNone(s: string, c: char)
    requires c !in s
    ensures Split(s, c) == [s]
  {
  }

  /** `str.partition` undoes the concatenation `a + c + b` when `a` has no `c`. */
  lemma PartitionCons(a: string, c: char, b: string)
    requires c !in a
    ensures Partition(a + [c] + b, c) == Some((a, b))
  {
    var s := a + [c] + b;
    FirstIndexAfter(a, c, b);
    assert s[..|a|] == a;
    assert s[|a| + 1..] == b;
  }

  /** Splitting a join at its one-character separator gives back the
      pieces, provided none of them contains the separator. */
  lemma {:induction false} SplitJoin(c: char, xs: seq<string>)
    requires |xs| > 0
    requires forall i :: 0 <= i < |xs| ==> c !in xs[i]
    ensures Split(Join([c], xs), c) == xs
  {
    if |xs| == 1 {
      SplitNone(xs[0], c);
    } else {
      SplitJoin(c, xs[1..]);
      SplitCons(xs[0], c, Join([c], xs[1..]));
      assert xs == [xs[0]] + xs[1..];
    }
  }

  /** Appending one more piece to a non-empty join adds one separator. */
  lemma {:induction false} JoinSnoc(sep: string, xs: seq<string>, x: string)
    requires |xs| > 0
    ensures Join(sep, xs + [x]) == Join(sep, xs) + sep + x
  {
    if |xs| == 1 {
      assert (xs + [x])[1..] == [x];
    } else {
      assert (xs + [x])[1..] == xs[1..] + [x];
      JoinSnoc(sep, xs[1..], x);
    }
  }
}

=== FILE: validations_runner.dfy ===
/** The cross-config validation runner of
    src/cross_config_validations/validations_runner.py. What a validator
    computes is the parameter `apply`: `apply(f, args)` is the list of errors
    `f(*args)` returns. */
module ValidationsRunner {
  import opened Wrappers
  import opened Dicts
  import opened Models
  import opened Exceptions
  import opened ValidatorRegistry

  /** `[available_configs.get(t, None) for t in required]`. */
  function Lookups(required: seq<ConfigType>, available: Configs): (r: seq<Option<Config>>)
    ensures |r| == |required|
    ensures forall i :: 0 <= i < |required| ==> r[i] == Get(available, required[i])
  {
    if |required| == 0 then [] else [Get(available, required[0])] + Lookups(required[1..], available)
  }

  /** The values of lookups none of which failed. */
  function Values(lookups: seq<Option<Config>>): (r: seq<Config>)
    requires None !in lookups
    ensures |r| == |lookups|
    ensures forall i :: 0 <= i < |lookups| ==> lookups[i] == Some(r[i])
  {
    if |lookups| == 0 then [] else [lookups[0].value] + Values(lookups[1..])
  }

  /** A validator runs only if every one of its required types was found. */
  predicate Runs(entry: Registration, available: Configs)
  {
    None !in Lookups(entry.required, available)
  }

  /** The arguments a validator that runs is called with. */
  function Args(entry: Registration, available: Configs): seq<Config>
    requires Runs(entry, available)
  {
    Values(Lookups(entry.required, available))
  }

  /** What one registry entry adds to the error list. */
  function Contribution(entry: Registration, available: Configs, apply: Apply): seq<Error>
  {
    if Runs(entry, available) then apply(entry.func, Args(entry, available)) else []
  }

  /** `e` is among the errors returned by a registered validator that runs. */
  ghost predicate RaisedBySomeRunner(e: Error, registry: Registry, available: Configs, apply: Apply)
  {
    exists i :: 0 <= i < |registry| && Runs(registry[i], available) && e in apply(registry[i].func, Args(registry[i], available))
  }

  /** `_run_validations`: the errors of every runnable validator, in registry order. */
  function Run(registry: Registry, available: Configs, apply: Apply): seq<Error>
  {
    if |registry| == 0 then []
    else Run(registry[..|registry| - 1], available, apply) + Contribution(registry[|registry| - 1], available, apply)
  }

  /** `run_validations(available_configs, should_raise_on_error)`: the loop
      over the registry, then the strict-mode check. Raising hands the whole
      list over as one grouped failure. */
  method RunValidations(registry: Registry, available: Configs, apply: Apply, shouldRaise: bool)
    returns (r: Result<seq<Error>, seq<Error>>)
    ensures r.Failure? <==> shouldRaise && |Run(registry, available, apply)| > 0
    ensures r.Success? ==> r.value == Run(registry, available, apply)
    ensures r.Failure? ==> r.error == Run(registry, available, apply)
    ensures r.Success? ==> forall e :: e in r.value <==> RaisedBySomeRunner(e, registry, available, apply)
    ensures r.Failure? ==> forall e :: e in r.error <==> RaisedBySomeRunner(e, registry, available, apply)
  {
    var errors: seq<Error> := [];
    var i := 0;
    while i < |registry|
      invariant 0 <= i <= |registry|
      invariant errors == Run(registry[..i], available, apply)
    {
      var entry := registry[i];
      var lookups := Lookups(entry.required, available);
      if None !in lookups {
        errors := errors + apply(entry.func, Values(lookups));
      }
      assert registry[..i + 1][..i] == registry[..i];
      i := i + 1;
    }
    assert registry[..i] == registry;
    RunMembership(registry, available, apply);
    if shouldRaise && |errors| > 0 {
      r := Failure(errors);
    } else {
      r := Success(errors);
    }
  }

  /** A validator is skipped exactly when one of its required types is missing. */
  lemma RunsIff(entry: Registration, available: Configs)
    ensures Runs(entry, available) <==> forall t :: t in entry.required ==> t in KeySeq(available)
  {
    var lookups := Lookups(entry.required, available);
    if !Runs(entry, available) {
      var i :| 0 <= i < |lookups| && lookups[i] == None;
      assert entry.required[i] !in KeySeq(available);
    } else {
      forall t | t in entry.required
        ensures t in KeySeq(available)
      {
        var i :| 0 <= i < |entry.required| && entry.required[i] == t;
        assert lookups[i] in lookups;
      }
    }
  }

  /** A validator that runs gets one instance per required type, in the
      order the types were declared, whatever order the configs were
      inserted in. */
  lemma ArgsInDeclaredOrder(entry: Registration, available: Configs)
    requires Runs(entry, available)
    ensures |Args(entry, available)| == |entry.required|
    ensures forall i :: 0 <= i < |entry.required| ==> Get(available, entry.required[i]) == Some(Args(entry, available)[i])
  {
  }

  /** The arguments do not depend on the order in which the configs were
      loaded: two dicts that store the same instance under every type give
      the same arguments. */
  lemma ArgsIgnoreInsertionOrder(entry: Registration, d1: Configs, d2: Configs)
    requires forall t :: Get(d1, t) == Get(d2, t)
    ensures Runs(entry, d1) <==> Runs(entry, d2)
    ensures Runs(entry, d1) ==> Args(entry, d1) == Args(entry, d2)
  {
  }

  /** Over well-typed configs each argument is an instance of the type
      declared for its parameter. */
  lemma ArgsWellTyped(entry: Registration, available: Configs)
    requires Runs(entry, available)
    requires WellTyped(available)
    ensures forall i :: 0 <= i < |entry.required| ==> TypeOf(Args(entry, available)[i]) == entry.required[i]
  {
    var args := Args(entry, available);
    forall i | 0 <= i < |entry.required|
      ensures TypeOf(args[i]) == entry.required[i]
    {
      GetWellTyped(available, entry.required[i]);
    }
  }

  lemma {:induction false} GetWellTyped(available: Configs, t: ConfigType)
    requires WellTyped(available)
    requires Get(available, t).Some?
    ensures TypeOf(Get(available, t).value) == t
  {
    if available[0].0 != t {
      GetWellTyped(available[1..], t);
    }
  }

  /** A validator with no required types always runs, with no arguments. */
  lemma NoRequirementsAlwaysRuns(entry: Registration, available: Configs, apply: Apply)
    requires |entry.required| == 0
    ensures Runs(entry, available)
    ensures Contribution(entry, available, apply) == apply(entry.func, [])
  {
  }

  /** Running two registries one after the other concatenates their errors. */
  lemma {:induction false} RunAppend(r1: Registry, r2: Registry, available: Configs, apply: Apply)
    ensures Run(r1 + r2, available, apply) == Run(r1, available, apply) + Run(r2, available, apply)
    decreases |r2|
  {
    if |r2| > 0 {
      var n := |r2| - 1;
      assert (r1 + r2)[..|r1 + r2| - 1] == r1 + r2[..n];
      assert (r1 + r2)[|r1 + r2| - 1] == r2[n];
      RunAppend(r1, r2[..n], available, apply);
    } else {
      assert r1 + r2 == r1;
    }
  }

  /** A skipped validator adds nothing; a runnable one adds exactly its own
      output, after everything registered before it. */
  lemma RunSnoc(registry: Registry, entry: Registration, available: Configs, apply: Apply)
    ensures !Runs(entry, available) ==> Run(registry + [entry], available, apply) == Run(registry, available, apply)
    ensures Runs(entry, available) ==>
      Run(registry + [entry], available, apply) == Run(registry, available, apply) + apply(entry.func, Args(entry, available))
  {
    assert (registry + [entry])[..|registry|] == registry;
  }

  /** Every reported error comes from a validator that ran, and every error
      of a validator that ran is reported. */
  lemma {:induction false} RunMembership(registry: Registry, available: Configs, apply: Apply)
    ensures forall e :: e in Run(registry, available, apply) <==> RaisedBySomeRunner(e, registry, available, apply)
  {
    if |registry| > 0 {
      var n := |registry| - 1;
      var prefix := registry[..n];
      RunMembership(prefix, available, apply);
      forall e
        ensures e in Run(registry, available, apply) <==> RaisedBySomeRunner(e, registry, available, apply)
      {
        if e in Run(prefix, available, apply) {
          var i :| 0 <= i < |prefix| && Runs(prefix[i], available) && e in apply(prefix[i].func, Args(prefix[i], available));
          assert registry[i] == prefix[i];
        }
        if RaisedBySomeRunner(e, registry, available, apply) {
          var i :| 0 <= i < |registry| && Runs(registry[i], available) && e in apply(registry[i].func, Args(registry[i], available));
          if i < n {
            assert prefix[i] == registry[i];
          }
        }
      }
    }
  }

  /** The result depends only on which instance each type maps to, not on
      the order in which the configs were inserted. */
  lemma {:induction false} RunIgnoresInsertionOrder(registry: Registry, d1: Configs, d2: Configs, apply: Apply)
    requires forall t :: Get(d1, t) == Get(d2, t)
    ensures Run(registry, d1, apply) == Run(registry, d2, apply)
  {
    if |registry| > 0 {
      var entry := registry[|registry| - 1];
      assert Lookups(entry.required, d1) == Lookups(entry.required, d2);
      RunIgnoresInsertionOrder(registry[..|registry| - 1], d1, d2, apply);
    }
  }
}

=== FILE: validator_registry.dfy ===
/** The cross-config validator registry of
    src/cross_config_validations/validators/__init__.py: an ordered list of
    (function, required config types) pairs, where the required types are
    read off the function's parameter annotations and every parameter must
    be annotated with a config class. */
module ValidatorRegistry {
  import opened Wrappers
  import opened Models
  import opened Exceptions

  datatype Registration = Registration(func: ValidationFunc, required: seq<ConfigType>)

  /** `VALIDATORS`, in registration order. */
  type Registry = seq<Registration>

  /** `issubclass(param.annotation, BaseConfig)`. */
  predicate IsConfigParam(p: Param)
  {
    p.annotation.ConfigAnnotation?
  }

  predicate AllConfigParams(ps: seq<Param>)
  {
    forall i :: 0 <= i < |ps| ==> IsConfigParam(ps[i])
  }

  /** The check `register_validation` makes before registering. */
  predicate ValidSignature(f: ValidationFunc)
  {
    AllConfigParams(f.params)
  }

  /** The parameters whose annotation is not a config class, in declaration order. */
  function InvalidParams(ps: seq<Param>): (r: seq<Param>)
    ensures forall p :: p in r <==> p in ps && !IsConfigParam(p)
    ensures |r| <= |ps|
  {
    if |ps| == 0 then []
    else if IsConfigParam(ps[0]) then InvalidParams(ps[1..])
    else [ps[0]] + InvalidParams(ps[1..])
  }

  /** `InvalidParams` is the order-keeping filter of the list comprehension:
      it distributes over concatenation (this lemma) and keeps a single
      parameter exactly when it is not a config class (`InvalidParamsSingle`).
      Every list is a concatenation of single parameters, so the two fix the
      result, order and repeats included. */
  lemma {:induction false} InvalidParamsAppend(a: seq<Param>, b: seq<Param>)
    ensures InvalidParams(a + b) == InvalidParams(a) + InvalidParams(b)
  {
    if |a| == 0 {
      assert a + b == b;
    } else {
      var ab := a + b;
      assert ab[0] == a[0] && ab[1..] == a[1..] + b;
      InvalidParamsAppend(a[1..], b);
    }
  }

  lemma InvalidParamsSingle(p: Param)
    ensures InvalidParams([p]) == if IsConfigParam(p) then [] else [p]
  {
    assert [p][1..] == [];
  }

  /** `tuple(param.annotation for param in parameters)`, taken only once
      every annotation is known to be a config class. */
  function RequiredTypes(ps: seq<Param>): (r: seq<ConfigType>)
    ensures AllConfigParams(ps) ==> |r| == |ps|
    ensures AllConfigParams(ps) ==> forall i :: 0 <= i < |ps| ==> ps[i].annotation == ConfigAnnotation(r[i])
  {
    if |ps| == 0 then []
    else
      var rest := RequiredTypes(ps[1..]);
      assert AllConfigParams(ps) ==> AllConfigParams(ps[1..]) by {
        if AllConfigParams(ps) {
          forall i | 0 <= i < |ps[1..]|
            ensures IsConfigParam(ps[1..][i])
          {
            assert ps[1..][i] == ps[i + 1];
          }
        }
      }
      match ps[0].annotation
      case ConfigAnnotation(t) => [t] + rest
      case OtherAnnotation(_) => rest
  }

  /** The `InvalidValidationFunctionSignature` raised for a bad signature. */
  function SignatureError(f: ValidationFunc): Error
  {
    Error(InvalidSignature,
          "Function " + f.qualname + " has parameters in its signature that are not subclasses of BaseConfig",
          [("func", Text(f.name)), ("invalid_parameters", Parameters(InvalidParams(f.params)))])
  }

  /** `register_validation(f)`: the registry afterwards, and either the
      function itself (the decorator's return) or the error it raises. */
  function RegisterValidation(registry: Registry, f: ValidationFunc): (r: (Registry, Result<ValidationFunc, Error>))
    ensures r.1.Success? <==> ValidSignature(f)
    ensures r.1.Success? ==>
      && r.1.value == f
      && |r.0| == |registry| + 1
      && r.0[..|registry|] == registry
      && r.0[|registry|].func == f
      && |r.0[|registry|].required| == |f.params|
      && forall i :: 0 <= i < |f.params| ==> f.params[i].annotation == ConfigAnnotation(r.0[|registry|].required[i])
    ensures r.1.Failure? ==>
      && r.0 == registry
      && r.1.error.kind == InvalidSignature
      && |r.1.error.attrs| == 2
      && r.1.error.attrs[0] == ("func", Text(f.name))
      && r.1.error.attrs[1].0 == "invalid_parameters"
      && r.1.error.attrs[1].1.Parameters?
      && |r.1.error.attrs[1].1.params| > 0
      && r.1.error.attrs[1].1.params == InvalidParams(f.params)
      && forall p :: p in r.1.error.attrs[1].1.params <==> p in f.params && !IsConfigParam(p)
  {
    if !ValidSignature(f) then
      var i :| 0 <= i < |f.params| && !IsConfigParam(f.params[i]);
      assert f.params[i] in InvalidParams(f.params);
      (registry, Failure(SignatureError(f)))
    else
      var r := registry + [Registration(f, RequiredTypes(f.params))];
      assert r[..|registry|] == registry;
      (r, Success(f))
  }

  /** Index of the first function with a bad signature, or `|fs|`. */
  function FirstInvalid(fs: seq<ValidationFunc>): (k: nat)
    ensures k <= |fs|
  {
    if |fs| == 0 then 0
    else if !ValidSignature(fs[0]) then 0
    else 1 + FirstInvalid(fs[1..])
  }

  /** `FirstInvalid` is the position of the first rejected signature. */
  lemma {:induction false} FirstInvalidIsFirst(fs: seq<ValidationFunc>)
    ensures forall i :: 0 <= i < FirstInvalid(fs) ==> ValidSignature(fs[i])
    ensures FirstInvalid(fs) < |fs| ==> !ValidSignature(fs[FirstInvalid(fs)])
  {
    if |fs| > 0 && ValidSignature(fs[0]) {
      FirstInvalidIsFirst(fs[1..]);
      forall i | 0 <= i < FirstInvalid(fs)
        ensures ValidSignature(fs[i])
      {
        if i > 0 {
          assert fs[i] == fs[1..][i - 1];
        }
      }
    }
  }

  /** The registrations of functions with valid signatures, in order. */
  function Registrations(fs: seq<ValidationFunc>): (r: Registry)
    ensures |r| == |fs|
  {
    if |fs| == 0 then [] else [Registration(fs[0], RequiredTypes(fs[0].params))] + Registrations(fs[1..])
  }

  /** Registering several functions in import order. A rejected signature
      raises at import time, so nothing after it is registered. */
  function RegisterAll(registry: Registry, fs: seq<ValidationFunc>): (Registry, Option<Error>)
    decreases |fs|
  {
    if |fs| == 0 then (registry, None)
    else
      var step := RegisterValidation(registry, fs[0]);
      if step.1.Failure? then (step.0, Some(step.1.error)) else RegisterAll(step.0, fs[1..])
  }

  lemma RegisterOneValid(registry: Registry, f: ValidationFunc)
    requires ValidSignature(f)
    ensures RegisterValidation(registry, f) == (registry + [Registration(f, RequiredTypes(f.params))], Success(f))
  {
  }

  lemma RegisterOneInvalid(registry: Registry, f: ValidationFunc)
    requires !ValidSignature(f)
    ensures RegisterValidation(registry, f) == (registry, Failure(SignatureError(f)))
  {
  }

  /** One step of `RegisterAll`. */
  lemma RegisterAllStep(registry: Registry, fs: seq<ValidationFunc>)
    requires |fs| > 0
    ensures !ValidSignature(fs[0]) ==> RegisterAll(registry, fs) == (registry, Some(SignatureError(fs[0])))
    ensures ValidSignature(fs[0]) ==>
      RegisterAll(registry, fs) == RegisterAll(registry + [Registration(fs[0], RequiredTypes(fs[0].params))], fs[1..])
  {
    if ValidSignature(fs[0]) {
      RegisterOneValid(registry, fs[0]);
    } else {
      RegisterOneInvalid(registry, fs[0]);
    }
  }

  lemma RegistrationsCons(fs: seq<ValidationFunc>, k: nat)
    requires 1 <= k <= |fs|
    ensures Registrations(fs[..k]) == [Registration(fs[0], RequiredTypes(fs[0].params))] + Registrations(fs[1..][..k - 1])
  {
    assert fs[1..][..k - 1] == fs[..k][1..];
  }

  /** Registering in order yields the registrations of every function before
      the first bad one, in order, and reports that bad one's error. */
  lemma {:induction false} RegisterAllPrefix(registry: Registry, fs: seq<ValidationFunc>)
    ensures RegisterAll(registry, fs).0 == registry + Registrations(fs[..FirstInvalid(fs)])
    ensures RegisterAll(registry, fs).1 ==
      if FirstInvalid(fs) < |fs| then Some(SignatureError(fs[FirstInvalid(fs)])) else None
    decreases |fs|
  {
    var k := FirstInvalid(fs);
    if |fs| == 0 {
      assert fs[..k] == [];
    } else if ValidSignature(fs[0]) {
      var reg := Registration(fs[0], RequiredTypes(fs[0].params));
      RegisterAllStep(registry, fs);
      RegisterAllPrefix(registry + [reg], fs[1..]);
      RegistrationsCons(fs, k);
      if k < |fs| {
        assert fs[1..][k - 1] == fs[k];
      }
    } else {
      RegisterAllStep(registry, fs);
      assert fs[..k] == [];
    }
  }
}

=== FILE: wrappers.dfy ===
/** Failure-compatible wrappers used throughout the model. */
module Wrappers {

  /** A value that may be absent (Python's `None`). */
  datatype Option<+T> = None | Some(value: T) {
    function GetOr(default: T): T {
      match this
      case Some(v) => v
      case None => default
    }
  }

  /** Either a normal return value or the error the call raised. */
  datatype Result<+R, +E> = Success(value: R) | Failure(error: E)
}
